=== FILE: README.md ===
# A verified model of the jwt-auth-api auth core

The service issues and renews JSON Web Tokens for a user store. This project
models its core in Dafny:

- **Duration parsing and token issuance** (`src/utils/tokenUtil.js`),
  module `TokenUtil`. `getExpiryTime` turns `"30s"`, `"7d"` and similar
  values into milliseconds. It reads the amount with JavaScript `parseInt`
  semantics, lowercases the one-character unit, and falls back to seconds
  for an unknown unit. A falsy value or an amount that is not a number
  returns the raw default `'1d'`. `issueToken`/`getTokens` build the payload
  `{username, roles, _id}` and sign one access token and one refresh token.
- **The request handlers** (`src/controllers/authController.js`), module
  `AuthController`:
  - `login`, `register`, `logout` and `tokenRefresh` are first stated as
    functions from the old user store to a `Step`, that is the result
    handed to the response or to `next` together with the new store;
  - the class `AuthService` holds the user collection as a mutable map
    and runs the same guards step by step;
  - each of its methods is proved equal to its function and to keep the
    store invariant (unique, non-empty user names; every record under its
    own id).
- **The access gateway** (`src/middleware/jwtMiddleware.js`), module
  `JwtMiddleware`. Only the url `/` bypasses the gateway. Otherwise the
  token is the second space-separated field of the `Authorization`
  header; the scheme word is never checked. The middleware verifies it
  with the access secret and either sets `req.user` or passes a 401 on to
  `next`.
- **The error taxonomy and responder** (`src/utils/error.js`), module
  `Errors`. This covers `Exception` with its defaults, the six subclasses,
  and `globalErrorHandler`, whose body fields fall back independently.
- **The start-up configuration check** (`src/config/index.js`), module
  `Config`. It is a straight-line chain of nine guards over the
  environment. It is also restated as an ordered list of guards run by
  `FirstFailure`, and the two are proved equal.

Three modules support the five above:
- `JsText` models the JavaScript string primitives the code relies on:
  `parseInt(s, 10)`, `String(n)`, `split(' ')` and `toLowerCase` on one
  character.
- `Users` models the user record of `src/modules/User.js` and the store
  invariant.
- `Wrappers` holds `Option`, `Result` and `Outcome`.

The foreign libraries are passed in as function values. These are JWT
`sign`/`verify` (`Signer`, `Verifier`) and bcrypt `hash`/`compare` (the
`Crypto` datatype). `jwt.sign` stamps each token with its issue time `iat`,
the clock in whole seconds; that reading is a parameter `now` of
`GetTokens`, `LoginSpec`, `RefreshSpec` and the matching methods, and the
signer takes it as its last argument. Logins of one user in different
seconds thus get different refresh tokens, and logins within one second
get the same one, as with `jsonwebtoken`. What the handlers rely on from them is stated as
predicates used in the lemmas' `requires`:
- a verifier accepts what the signer made with the same secret, at any
  time, since it does not see the clock (`SignVerifies`);
- it rejects a token checked against another secret (`SecretBound`);
- tokens are never empty (`TokensNonEmpty`);
- tokens signed in different seconds differ (`IssueTimeSeparates`);
- a password matches its own hash (`PasswordSound`).

Where the intended behaviour and the code disagree, the model follows
the code:
- The doc comment of `getExpiryTime` (src/utils/tokenUtil.js:9-14)
  promises a number of milliseconds, and a default given in milliseconds.
  The code returns the default string `'1d'` itself when the value is
  falsy or its amount is not a number, so `GetExpiryTime` returns
  `Raw("1d")` (`TokenUtil.RawDefaultExactly`).
- The responder is meant to answer every failure with a status code. It
  passes `err.statusCode` through unchanged, so an error without a
  `statusCode` is answered without one. Examples are the Mongoose and
  MongoDB schema and duplicate-key errors of `register`. See `Errors.RespondToForeignError`
  and `AuthController.RegisterTakenName`. The model stops at the
  arguments the responder hands to `res.status` and `res.json`; what Node
  and Express then send for an undefined status code is not modelled.
- The configuration requires both secrets to be set but not to differ.
  With equal secrets a refresh token passes the gateway as an access token
  (`TokenUtil.SharedSecretConfusesTokens`); `TokensAreNotInterchangeable`
  holds only for distinct secrets.

## Model

| member | source | states |
|---|---|---|
| `TokenUtil.GetExpiryTime` | src/utils/tokenUtil.js:15-33 | `getExpiryTime` with its default `'1d'`: a raw result is always that default, and a number result is a whole number of seconds in milliseconds; its cases are stated by `DigitsThenUnit`, `UnknownUnitIsSeconds`, `RawDefaultExactly` and `NumberIsSeconds` |
| `TokenUtil.Multiplier` | src/utils/tokenUtil.js:25 | `TIME_UNITS[unit] \|\| 1000`: the table's factor for `s`, `m`, `h`, `d`, and 1000 for any other character; stated by `RecognisedUnits` and `UnknownUnitIsSeconds` |
| `TokenUtil.DigitsThenUnit` | src/utils/tokenUtil.js:20-26 | digits followed by a unit give the digits' decimal value times that unit's multiplier, never the default |
| `TokenUtil.RecognisedUnits` | src/utils/tokenUtil.js:3-8 | `s`, `m`, `h`, `d` multiply by 1000, 60000, 3600000, 86400000; `"30s"` is 30000 and `"7d"` is 604800000 |
| `TokenUtil.UnitIsCaseInsensitive` | src/utils/tokenUtil.js:20 | an upper-case unit letter gives the same result as the lower-case one; `"2H"` = `"2h"` = 7200000 |
| `TokenUtil.UnknownUnitIsSeconds` | src/utils/tokenUtil.js:21-26 | a unit outside the table multiplies by 1000: `"5x"` is 5000 and `"55"` (amount 5, unit `'5'`) is 5000 |
| `TokenUtil.RawDefaultExactly` | src/utils/tokenUtil.js:15-23 | the raw `'1d'` comes back exactly for a missing value, 0, `""`, or a string with no integer before its unit (`"s"`, `"5"`, `"xs"`) |
| `TokenUtil.AmountIgnoresTrailingJunk` | src/utils/tokenUtil.js:21 | the amount is the `parseInt` prefix: `"12abcs"` is 12000 |
| `TokenUtil.AmountMayBeNegative` | src/utils/tokenUtil.js:21-26 | there is no positivity check: `"-5s"` is -5000 |
| `TokenUtil.NumberIsSeconds` | src/utils/tokenUtil.js:29 | a non-zero number n is `parseInt(String(n)) * 1000` = n × 1000 milliseconds |
| `TokenUtil.ExpiryText` | src/utils/tokenUtil.js:51 | `` `${expiresIn}` ``: milliseconds printed in decimal, the raw default as it is; what the signer receives is stated by `TokensShareOnePayload`, and `parseInt` reads the printed number back (`JsText.ParseIntRoundTrip`) |
| `TokenUtil.Payload` | src/utils/tokenUtil.js:45-50 | the payload `{username, roles, _id}` taken from the user record; stated by `TokensShareOnePayload` |
| `TokenUtil.IssueToken` | src/utils/tokenUtil.js:43-55 | `issueToken`: signs `{username, roles, _id}` with the given secret and the expiry as text, at one clock reading; stated by `TokensShareOnePayload` |
| `TokenUtil.GetTokens` | src/utils/tokenUtil.js:68-78 | `getTokens`: parses both expiries and signs one token per secret with one clock reading; stated by `TokensShareOnePayload`, `TokensAreNotInterchangeable` and `SharedSecretConfusesTokens` |
| `TokenUtil.TokensShareOnePayload` | src/utils/tokenUtil.js:43-78 | the access token is signed with the access secret and parsed access expiry, the refresh token with the refresh secret and parsed refresh expiry, both over `{username, roles, _id}`, and each verifies to that payload with its own secret |
| `TokenUtil.TokensAreNotInterchangeable` | src/utils/tokenUtil.js:68-74 | with distinct secrets and a secret-bound verifier, neither token of a pair verifies as the other kind |
| `TokenUtil.SharedSecretConfusesTokens` | src/config/index.js:21-26 | the configuration only requires each secret to be set; when the two are equal, the refresh token verifies under the access secret to the same claims, so it would pass the gateway |
| `JsText.ParseInt` | src/utils/tokenUtil.js:21 | `parseInt(s, 10)`: skip leading white space, one optional sign, the longest run of digits, no number without a digit; stated by `ParseIntStopsAtNonDigit`, `ParseIntNegative`, `ParseIntRoundTrip` and `DigitPrefixIsLongest` |
| `JsText.IntToString` | src/utils/tokenUtil.js:51 | `String(n)` of an integer, as in the template literal here and inside `parseInt` at line 29: an optional minus sign and the decimal digits; `parseInt` reads it back to `n` (`ParseIntRoundTrip`, used by `NumberIsSeconds`) |
| `JsText.LowerAscii` | src/utils/tokenUtil.js:20 | `toLowerCase()` on the unit character: an upper-case ASCII letter becomes its lower-case letter, anything else is unchanged; JavaScript also lower-cases non-ASCII letters (`'Ä'` to `'ä'`), which makes no difference here because no non-ASCII character lower-cases to `s`, `m`, `h` or `d` |
| `JsText.ParseIntStopsAtNonDigit` | src/utils/tokenUtil.js:21 | `parseInt` of digits followed by a non-digit reads the digits' value and ignores the rest |
| `JsText.ParseIntNegative` | src/utils/tokenUtil.js:21 | `parseInt` of a minus sign and digits is the negated value of the digits |
| `JsText.ParseIntRoundTrip` | src/utils/tokenUtil.js:29 | `parseInt(String(n), 10) == n` for every integer |
| `JsText.DigitPrefixIsLongest` | src/utils/tokenUtil.js:21 | the digit run `parseInt` reads is a prefix of its input and stops at the first non-digit |
| `JsText.JoinSplit` | src/middleware/jwtMiddleware.js:9 | `split(' ')` loses nothing: joining the fields with the separator gives the header back |
| `JsText.SplitAtFirst` | src/middleware/jwtMiddleware.js:9 | the first field of `split` ends at the first separator and the remaining fields are those of the rest |
| `JsText.Split` | src/middleware/jwtMiddleware.js:9 | `split` yields at least one field and no field contains the separator |
| `Config.Validate` | src/config/index.js:12-38 | the nine start-up guards in source order; stated by `ValidateIsGuardChain`, `ValidateReportsFirstFailure`, `ValidateAcceptsExactly` and `MissingExpiryReportsRequired` |
| `Config.ExpiryFormat` | src/config/index.js:30-38 | `/^\d+[smhd]$/.test(s)` at lines 30 and 36: digits, then one lower-case unit; stated by `ExpiryFormatExamples` and `FormattedExpiryParses` |
| `Config.ValidateIsGuardChain` | src/config/index.js:12-38 | the nine straight-line checks are exactly the ordered guard list run until the first failure |
| `Config.FirstFailingGuardDecides` | src/config/index.js:12-38 | the first guard that fails decides the message, whatever later guards would say |
| `Config.ChainPassesIffAllHold` | src/config/index.js:12-38 | the guard chain passes exactly when every guard holds |
| `Config.ValidateReportsFirstFailure` | src/config/index.js:12-38 | a rejected configuration reports the message of the first failing guard in the order PORT, AUTHPORT, MONGODB, the two secrets, then each expiry's presence and format |
| `Config.ValidateAcceptsExactly` | src/config/index.js:12-38 | the configuration is accepted exactly when all seven variables are non-empty and both expiries match `^\d+[smhd]$` |
| `Config.MissingExpiryReportsRequired` | src/config/index.js:27-38 | a missing or empty expiry reports `"... is required"`, not the format message: presence is checked first and the empty string counts as missing |
| `Config.ExpiryFormatExamples` | src/config/index.js:30 | `"7d"`, `"30s"`, `"10m"`, `"24h"` match the format; `"7D"`, `"7"`, `"7dd"`, `"d"` do not |
| `Config.FormattedExpiryParses` | src/config/index.js:30 | every expiry the format accepts is parsed by `getExpiryTime` to its digits × its unit's multiplier, a non-negative number, never the raw default |
| `Config.SettingsOf` | src/config/index.js:21-38 | after validation both secrets are non-empty and both expiries are well-formed strings |
| `Config.ValidatedExpiriesAreMillis` | src/config/index.js:27-38 | under a validated environment both expiries parse to non-negative milliseconds |
| `Errors.Exception` | src/utils/error.js:9-17 | the base class constructor with its defaults 404, `'error'` and `{}`; stated by `ExceptionDefaults` |
| `Errors.SubclassException` | src/utils/error.js:19-53 | the six subclass constructors, each passing its own code and label; stated by `SubclassFields` and `KindsAreDistinguishable` |
| `Errors.GlobalErrorHandler` | src/utils/error.js:1-7 | the arguments the responder hands to `res.status` and `res.json`: the status code passed through unchanged, and a body whose status and message are never empty; the cases are stated by `RespondToSubclass`, `RespondToForeignError` and `ResponseBodyIsNeverEmpty` |
| `Errors.KindOfStatusCode` | src/utils/error.js:19-53 | a status code maps back only to the subclass that carries it |
| `Errors.ExceptionDefaults` | src/utils/error.js:9-17 | the base class defaults to 404, `'error'` and `{}`, and keeps every argument that is given |
| `Errors.SubclassFields` | src/utils/error.js:19-53 | each subclass fixes its code and label (400 BadRequest, 401, 403, 404, 422 `'Validation Error'`, 500) and one built without data carries `{}` |
| `Errors.KindsAreDistinguishable` | src/utils/error.js:19-53 | no two subclasses share a status code or a label |
| `Errors.RespondToSubclass` | src/utils/error.js:1-7 | a subclass error is answered with its own code and label, its message (or the fallback when empty) and its data |
| `Errors.RespondToForeignError` | src/utils/error.js:1-7 | for an error without a `statusCode`, such as the Mongoose and MongoDB errors of `register`, the status code handed to `res.status` is undefined while the body handed to `res.json` falls back to `'error'` and `{}` |
| `Errors.ResponseBodyIsNeverEmpty` | src/utils/error.js:1-7 | whatever the error, the body's status and message are non-empty and missing data becomes `{}` |
| `Users.FindByUsername` | src/controllers/authController.js:23 | `findOne({username})` finds a user with that name, or reports that no user has it |
| `Users.SetTokensPreservesInvariant` | src/controllers/authController.js:31-32 | replacing one user's refresh tokens and saving keeps names unique and records under their ids |
| `JwtMiddleware.CheckAllowedRoutes` | src/middleware/jwtMiddleware.js:22-25 | `checkAllowedRoutes`: the url compared exactly with `/`; stated by `OnlyRootIsAllowed` |
| `JwtMiddleware.BearerToken` | src/middleware/jwtMiddleware.js:8-10 | `headers && headers.split(' ')[1]` followed by the `!token` test: a token is taken only from a header and is non-empty and holds no space; characterised by `BearerTokenIsSecondField` |
| `JwtMiddleware.BearerTokenIsSecondField` | src/middleware/jwtMiddleware.js:8-10 | the token is the text between the header's first space and the next space or the end; there is none when the header has no space, or its first space is followed by another space or by the end |
| `JwtMiddleware.TokenIsDelimited` | src/middleware/jwtMiddleware.js:9 | a header that yields a token is some scheme word, a space, the token (non-empty, no space) and whatever follows |
| `JwtMiddleware.TokenAfterScheme` | src/middleware/jwtMiddleware.js:9 | after a space-free scheme word and one space, the token runs to the next space |
| `JwtMiddleware.HeaderRoundTrip` | src/middleware/jwtMiddleware.js:9 | a header built as scheme, space, token (and optionally a space and more) yields exactly that token, whatever the scheme word |
| `JwtMiddleware.FirstIndexOfPrefix` | src/middleware/jwtMiddleware.js:9 | the first space of a header whose scheme word has none is the first space after that word |
| `JwtMiddleware.SchemeIsNotChecked` | src/middleware/jwtMiddleware.js:8-9 | `"Token abc"` yields `abc` just as `"Bearer abc"` does |
| `JwtMiddleware.MalformedHeadersAreRejected` | src/middleware/jwtMiddleware.js:9-10 | a missing or empty header, `"Bearer"` and `"Bearer  x"` yield no token |
| `JwtMiddleware.NoSpaceNoToken` | src/middleware/jwtMiddleware.js:9-10 | a header without a space yields no token |
| `JwtMiddleware.EmptySecondField` | src/middleware/jwtMiddleware.js:9-10 | two spaces in a row after the scheme word leave the token empty, so none is taken |
| `JwtMiddleware.OnlyRootIsAllowed` | src/middleware/jwtMiddleware.js:22-25 | only the exact url `/` is allow-listed; `/posts` and `/?x=1` are not |
| `JwtMiddleware.SignedTokenIsAccepted` | src/middleware/jwtMiddleware.js:8-15 | a token signed with the access secret, under any scheme word, is extracted and verifies to exactly its claims |
| `JwtMiddleware.Handle` | src/middleware/jwtMiddleware.js:5-20 | an allow-listed url calls `next()` and leaves `req.user` alone; no token or a failed verification calls `next` with the 401 `'Unauthorized'` error and leaves `req.user` alone; a verified token sets `req.user` to its claims and calls `next()`; `next` is called exactly once |
| `JwtMiddleware.Request.constructor` | src/middleware/jwtMiddleware.js:5 | a request starts with its url and header and no `user` |
| `AuthController.RemoveAll` | src/controllers/authController.js:57 | the filter keeps exactly the tokens different from the presented one |
| `AuthController.RemoveAllDistributes` | src/controllers/authController.js:57 | the filter preserves order: filtering a concatenation filters each part in place |
| `AuthController.RemoveAllCounts` | src/controllers/authController.js:57 | the filter removes every copy of the token and keeps every other token as often as it occurred |
| `AuthController.LoginSpec` | src/controllers/authController.js:18-39 | a failed login leaves the store unchanged and every login keeps the store invariant |
| `AuthController.RegisterSpec` | src/controllers/authController.js:80-96 | a failed registration leaves the store unchanged and every registration keeps names unique and non-empty |
| `AuthController.InsertPreservesInvariant` | src/controllers/authController.js:89 | inserting a user under a fresh id with a new non-empty name keeps the store invariant |
| `AuthController.RefreshTokenOwner` | src/controllers/authController.js:45-55 | the shared cookie guards succeed only for a present cookie held in the refresh-token list of an existing user |
| `AuthController.LogoutSpec` | src/controllers/authController.js:42-67 | a failed logout leaves the store unchanged and every logout keeps the store invariant |
| `AuthController.RefreshSpec` | src/controllers/authController.js:98-133 | a failed refresh leaves the store unchanged and every refresh keeps the store invariant |
| `AuthController.LoginUnknownUser` | src/controllers/authController.js:23-24 | an unknown name gives 400 BadRequest `'No user found'` and changes nothing |
| `AuthController.LoginWrongPassword` | src/controllers/authController.js:26-27 | a known name with a wrong password gives 422 `'Incorrect password'` and changes nothing |
| `AuthController.LoginAppends` | src/controllers/authController.js:29-34 | a successful login replies with the signed pair and appends its refresh token to that user's list; no other user or field changes |
| `AuthController.CookieGuards` | src/controllers/authController.js:45-55 | logout and refresh fail alike and in order with 400: no cookie (`'refresh token not found'`), a cookie that does not verify (`'Invalid refresh token'`), an unknown user or a token not in the list (`'User not found'`); failures change nothing |
| `AuthController.LogoutRemovesEveryCopy` | src/controllers/authController.js:53-62 | a successful logout filters the owner's list in order: the token is gone, every other token stays with its count, nothing else changes |
| `AuthController.LogoutThenRefreshFails` | src/controllers/authController.js:57 | after logout the same cookie gives 400 `'User not found'` on refresh and on a second logout |
| `AuthController.RefreshKeepsPresentedToken` | src/controllers/authController.js:110-128 | a successful refresh appends the new token and keeps the presented one, so the old list is a prefix and the old cookie still refreshes; the cookie holds the new refresh token with `maxAge = getExpiryTime(REFRESH_TOKEN_EXPIRE)` and the body only the access token |
| `AuthController.RefreshCookieMaxAge` | src/controllers/authController.js:119-126 | under a validated configuration the cookie's `maxAge` is non-negative milliseconds |
| `AuthController.RegisterAddsOneUser` | src/controllers/authController.js:85-91 | registering a new name adds exactly one user under the next id, holding the hash of the password and no tokens or roles, and replies `'successfully created : <name>'` |
| `AuthController.RegisterTakenName` | src/controllers/authController.js:89 | a taken name or an empty name fails with a library error that has no status code, and nothing changes |
| `AuthController.RegisterThenLogin` | src/controllers/authController.js:18-96 | registering and then logging in with the same password succeeds and leaves the new user with exactly that one refresh token |
| `AuthController.LoginThenRefresh` | src/controllers/authController.js:29-116 | the refresh token a login hands out refreshes at once |
| `AuthController.LoginsInOneSecondCollide` | src/controllers/authController.js:29-34 | two logins of one user in the same second hand out the same refresh token, which then sits twice in the user's list |
| `AuthController.LogoutKeepsOtherSessions` | src/controllers/authController.js:18-133 | after logins in two different seconds, logging out with the first refresh token leaves the second one refreshing in the second it was issued: only the presented token is filtered out |
| `AuthController.AuthService.constructor` | src/config/index.js:12-38 | the service starts from a validated environment, over a user collection that satisfies the store invariant |
| `AuthController.AuthService.Login` | src/controllers/authController.js:18-39 | runs `login` on the collection: result and new state are those of `LoginSpec`, and the invariant holds |
| `AuthController.AuthService.Register` | src/controllers/authController.js:80-96 | runs `register`: result and new state are those of `RegisterSpec` |
| `AuthController.AuthService.FindTokenOwner` | src/controllers/authController.js:101-112 | runs the cookie guards on the current collection, as `RefreshTokenOwner` |
| `AuthController.AuthService.Logout` | src/controllers/authController.js:42-67 | runs `logout`: result and new state are those of `LogoutSpec` |
| `AuthController.AuthService.TokenRefresh` | src/controllers/authController.js:98-133 | runs `tokenRefresh`: result and new state are those of `RefreshSpec` |

## Left out

- Signing and verifying JWTs (HMAC, the `exp` claim of RFC 7519 section
  4.1.4) belong to `jsonwebtoken`. They are the function values `sign` and
  `verify`. `verify` does not see the clock: in the model a token never
  expires, and the `exp` claim is not modelled, so the 400
  `'Invalid refresh token'` that an expired cookie gets
  (src/controllers/authController.js:105-106) arises only when `verify`
  rejects the token outright. Signing cannot fail, and the `iat`/`exp`
  fields of a decoded payload are not modelled.
- GetTokens: both tokens of a pair are signed with one clock reading
  `now`; the source signs them in two calls, each stamping its own `iat`,
  so a second boundary may fall between them.
- bcrypt salt generation, hashing and comparison are the function values
  `hash` and `passwordMatches`. The random salt of `genSalt(10)` is a
  parameter of `Register`.
- Mongoose and MongoDB are not modelled. The store is a map from ids to
  records, and `save` writes the changed record back. The unique index
  becomes the store invariant. A duplicate insert and a missing user name
  are opaque library errors. Their messages are the constants
  `DUPLICATE_KEY` and `USERNAME_REQUIRED`, whose text is simplified. Ids
  come from a counter, not from ObjectIds.
- AuthService.Register: a missing password is not modelled. The
  password is always a string, and bcrypt's rejection of `undefined` is
  not modelled.
- AuthService.Login: a missing `username` or `password` in the body is
  not modelled. Both are always strings. Mongoose's dropping of an
  `undefined` filter is not modelled, and neither is bcrypt rejecting
  `comparePassword(undefined)` (src/controllers/authController.js:26),
  which reaches `next(e)` as an error without a status code.
- The `accessTokens` field of the user schema is never written by the
  handlers and is not modelled.
- Express is reduced to what the handlers pass to `res` and `next`:
  - routing, cookie parsing, `clearCookie`, the cookie flags `httpOnly`,
    `secure` and `sameSite`, and the 200 status of the JSON replies;
  - the cookie is only its value and its `maxAge`;
  - the errors of the `express.json()` body parser mounted before the
    handlers (src/authServer.js:12, src/index.js:10) carry a status code 400 and
    a numeric `status`, and are not modelled.
- dotenv loading and console logging (`src/config/index.js:4-11`,
  `src/controllers/authController.js:102`) are I/O.
- Requests run one at a time. Lost updates between concurrent requests on
  the same user's `refreshTokens` are not modelled.
- GetExpiryTime: the `defaultValue` parameter is fixed to its default
  `'1d'` (`DEFAULT_EXPIRY`), because every call site omits it. Amounts are
  mathematical integers, and a number input is an integer: a fractional
  number such as `1.5` (which the source reads as `parseInt("1.5")`, so
  1000) is not representable; no call site passes a number. Floating-point
  rounding of `amount * multiplier` for huge amounts is not modelled, and
  neither is `parseInt` of a non-numeric object.
- IntToString: `String(n)` is modelled only for integers printed
  without an exponent.
- IssueToken: the `additionalParams` argument is never passed by the
  service and is left out, so the payload is exactly
  `{username, roles, _id}`.
- JwtMiddleware.Handle: the decoded payload stored in `req.user` is
  modelled as the signed claims only.

=== FILE: auth_controller.dfy ===
/**
 * The four request handlers of the auth server
 * (src/controllers/authController.js) over the user store: `login`,
 * `register`, `logout` and `tokenRefresh`. Each handler runs its guards in
 * order, the first failing one deciding the error, and on success changes
 * at most one user's `refreshTokens` (or, for `register`, adds one user).
 *
 * The handlers are first stated as functions from the old store to a
 * `Step`: the result handed to `res`/`next` and the new store. The class
 * `AuthService` then runs them step by step on mutable state, and each of
 * its methods is proved to do what its function says.
 */
module AuthController {
  import opened Wrappers
  import opened Errors
  import opened Users
  import opened TokenUtil
  import opened Config

  /**
   * The foreign functions the handlers call: JWT signing and verification,
   * `bcrypt.hash(password, salt)` and `bcrypt.compare(candidate, hash)`.
   */
  datatype Crypto = Crypto(sign: Signer, verify: Verifier, hash: (string, string) -> string, passwordMatches: (string, string) -> bool)

  /** bcrypt's promise: a password matches every hash made from it. */
  ghost predicate PasswordSound(crypto: Crypto) {
    forall password, salt :: crypto.passwordMatches(password, crypto.hash(password, salt))
  }

  /** What a successful handler sends. */
  datatype Reply =
    | Tokens(accessToken: string, refreshToken: string)            // login: `{accessToken, refreshToken}`
    | Message(text: string)                                        // register, logout: `{message}`
    | Refreshed(accessToken: string, cookie: string, maxAge: Expiry) // tokenRefresh: body `{accessToken}`, cookie `refreshToken`

  /** One handler run: the result passed to `res` or to `next`, and the store afterwards. */
  datatype Step = Step(result: Result<Reply, ErrorValue>, store: Store)

  function BadRequestError(message: string): ErrorValue {
    SubclassException(BadRequest, Some(message), None)
  }

  function IncorrectPassword(): ErrorValue {
    SubclassException(ValidationError, Some("Incorrect password"), None)
  }

  /** What Mongoose throws for a document without a `username`. */
  const USERNAME_REQUIRED: string := "User validation failed: username: Path `username` is required."

  /** What MongoDB throws when the unique index on `username` is violated. */
  const DUPLICATE_KEY: string := "E11000 duplicate key error"

  // ---------------------------------------------------------------- refresh-token lists

  /** `tokens.filter(token => token !== refreshToken)`. */
  function RemoveAll(tokens: seq<string>, token: string): (kept: seq<string>)
    ensures forall x :: x in kept <==> x in tokens && x != token
    ensures |kept| <= |tokens|
  {
    if tokens == [] then []
    else (if tokens[0] == token then [] else [tokens[0]]) + RemoveAll(tokens[1..], token)
  }

  /** The filter keeps order: filtering a concatenation filters each part in place. */
  lemma {:induction false} RemoveAllDistributes(a: seq<string>, b: seq<string>, token: string)
    ensures RemoveAll(a + b, token) == RemoveAll(a, token) + RemoveAll(b, token)
  {
    if a == [] {
      assert a + b == b;
    } else {
      assert (a + b)[0] == a[0];
      assert (a + b)[1..] == a[1..] + b;
      RemoveAllDistributes(a[1..], b, token);
    }
  }

  /** The filter drops every copy of the token and keeps every other token as often as it occurred. */
  lemma {:induction false} RemoveAllCounts(tokens: seq<string>, token: string)
    ensures multiset(RemoveAll(tokens, token)) == multiset(tokens)[token := 0]
  {
    if tokens != [] {
      RemoveAllCounts(tokens[1..], token);
      assert tokens == [tokens[0]] + tokens[1..];
    }
  }

  // ---------------------------------------------------------------- the handlers as functions

  /**
   * `login`: find the user by name ("No user found", 400), compare the
   * password ("Incorrect password", 422), then sign a pair and push the
   * refresh token onto the user's list.
   */
  function LoginSpec(store: Store, settings: Settings, crypto: Crypto, username: string, password: string, now: int): (step: Step)
    requires Invariant(store)
    ensures step.result.Failure? ==> step.store == store
    ensures Invariant(step.store)
  {
    var found := FindByUsername(store.users, username);
    if found.None? then Step(Failure(BadRequestError("No user found")), store)
    else
      var user := store.users[found.value];
      if !crypto.passwordMatches(password, user.passwordHash) then Step(Failure(IncorrectPassword()), store)
      else
        var tokens := GetTokens(user, settings.accessSecret, settings.refreshSecret,
                                settings.accessExpire, settings.refreshExpire, crypto.sign, now);
        SetTokensPreservesInvariant(store, found.value, user.refreshTokens + [tokens.refreshToken]);
        Step(Success(Tokens(tokens.accessToken, tokens.refreshToken)),
             store.(users := store.users[found.value := user.(refreshTokens := user.refreshTokens + [tokens.refreshToken])]))
  }

  /**
   * `register`: the password is hashed with the given salt and a user with
   * no refresh tokens and no roles is inserted under the next id. An empty
   * name fails the schema's `required`, a taken name the unique index; both
   * are library errors without a status code.
   */
  function RegisterSpec(store: Store, crypto: Crypto, username: string, password: string, salt: string): (step: Step)
    requires Invariant(store)
    ensures step.result.Failure? ==> step.store == store
    ensures Invariant(step.store)
  {
    var hasPassword := crypto.hash(password, salt);
    if username == "" then Step(Failure(ForeignError(USERNAME_REQUIRED)), store)
    else if FindByUsername(store.users, username).Some? then Step(Failure(ForeignError(DUPLICATE_KEY)), store)
    else
      var id := store.nextId;
      var store' := Store(store.users[id := User(id, username, hasPassword, [], [])], id + 1);
      InsertPreservesInvariant(store, User(id, username, hasPassword, [], []));
      Step(Success(Message("successfully created : " + username)), store')
  }

  /** Adding a user with a fresh id and a new, non-empty name keeps the store invariant. */
  lemma InsertPreservesInvariant(store: Store, user: User)
    requires Invariant(store)
    requires user.id == store.nextId && user.username != ""
    requires forall id :: id in store.users ==> store.users[id].username != user.username
    ensures Invariant(Store(store.users[user.id := user], user.id + 1))
  {
    var users' := store.users[user.id := user];
    forall a, b | a in users' && b in users' && users'[a].username == users'[b].username
      ensures a == b
    {
      if a != user.id && b != user.id {
        assert users'[a] == store.users[a] && users'[b] == store.users[b];
      }
    }
  }

  /**
   * The guards `logout` and `tokenRefresh` share: the cookie must be set
   * ("refresh token not found"), verify against the refresh secret
   * ("Invalid refresh token"), and name a user whose list holds it
   * ("User not found"); all three are 400. Yields the user's id.
   */
  function RefreshTokenOwner(store: Store, settings: Settings, crypto: Crypto, cookie: Option<string>): (owner: Result<UserId, ErrorValue>)
    ensures owner.Success? ==> cookie.Some? && owner.value in store.users && cookie.value in store.users[owner.value].refreshTokens
    ensures owner.Success? ==> crypto.verify(cookie.value, settings.refreshSecret).Some?
                               && crypto.verify(cookie.value, settings.refreshSecret).value.id == owner.value
    ensures cookie.Some? && cookie.value != "" && crypto.verify(cookie.value, settings.refreshSecret).Some?
            && crypto.verify(cookie.value, settings.refreshSecret).value.id in store.users
            && cookie.value in store.users[crypto.verify(cookie.value, settings.refreshSecret).value.id].refreshTokens
            ==> owner == Success(crypto.verify(cookie.value, settings.refreshSecret).value.id)
  {
    if cookie.None? || cookie.value == "" then Failure(BadRequestError("refresh token not found"))
    else
      var decoded := crypto.verify(cookie.value, settings.refreshSecret);
      if decoded.None? then Failure(BadRequestError("Invalid refresh token"))
      else if decoded.value.id !in store.users || cookie.value !in store.users[decoded.value.id].refreshTokens
      then Failure(BadRequestError("User not found"))
      else Success(decoded.value.id)
  }

  /** `logout`: after the shared guards, every copy of the presented token leaves the owner's list. */
  function LogoutSpec(store: Store, settings: Settings, crypto: Crypto, cookie: Option<string>): (step: Step)
    requires Invariant(store)
    ensures step.result.Failure? ==> step.store == store
    ensures Invariant(step.store)
  {
    var owner := RefreshTokenOwner(store, settings, crypto, cookie);
    if owner.Failure? then Step(Failure(owner.error), store)
    else
      var user := store.users[owner.value];
      SetTokensPreservesInvariant(store, owner.value, RemoveAll(user.refreshTokens, cookie.value));
      Step(Success(Message("Logged out successfully")),
           store.(users := store.users[owner.value := user.(refreshTokens := RemoveAll(user.refreshTokens, cookie.value))]))
  }

  /**
   * `tokenRefresh`: after the shared guards, a new pair is signed, its
   * refresh token pushed onto the owner's list (the presented one stays) and
   * set as the cookie, with `maxAge` the parsed refresh expiry; the body
   * carries the access token only.
   */
  function RefreshSpec(store: Store, settings: Settings, crypto: Crypto, cookie: Option<string>, now: int): (step: Step)
    requires Invariant(store)
    ensures step.result.Failure? ==> step.store == store
    ensures Invariant(step.store)
  {
    var owner := RefreshTokenOwner(store, settings, crypto, cookie);
    if owner.Failure? then Step(Failure(owner.error), store)
    else
      var user := store.users[owner.value];
      var tokens := GetTokens(user, settings.accessSecret, settings.refreshSecret,
                              settings.accessExpire, settings.refreshExpire, crypto.sign, now);
      SetTokensPreservesInvariant(store, owner.value, user.refreshTokens + [tokens.refreshToken]);
      Step(Success(Refreshed(tokens.accessToken, tokens.refreshToken, GetExpiryTime(settings.refreshExpire))),
           store.(users := store.users[owner.value := user.(refreshTokens := user.refreshTokens + [tokens.refreshToken])]))
  }

  // ---------------------------------------------------------------- login

  /** An unknown name is a 400 "No user found", and the store is left as it was. */
  lemma LoginUnknownUser(store: Store, settings: Settings, crypto: Crypto, username: string, password: string, now: int)
    requires Invariant(store)
    requires forall id :: id in store.users ==> store.users[id].username != username
    ensures var step := LoginSpec(store, settings, crypto, username, password, now);
      && step.store == store
      && step.result == Failure(ErrorValue(Some("No user found"), Some(400), Some("BadRequest"), Some(map[])))
  {
  }

  /** A known name with a password that does not match is a 422 "Incorrect password"; nothing changes. */
  lemma LoginWrongPassword(store: Store, settings: Settings, crypto: Crypto, id: UserId, password: string, now: int)
    requires Invariant(store) && id in store.users
    requires !crypto.passwordMatches(password, store.users[id].passwordHash)
    ensures var step := LoginSpec(store, settings, crypto, store.users[id].username, password, now);
      && step.store == store
      && step.result == Failure(ErrorValue(Some("Incorrect password"), Some(422), Some("Validation Error"), Some(map[])))
  {
    assert FindByUsername(store.users, store.users[id].username) == Some(id);
  }

  /**
   * A successful login replies with a freshly signed pair and appends its
   * refresh token to that user's list; no other user, and no other field,
   * changes.
   */
  lemma LoginAppends(store: Store, settings: Settings, crypto: Crypto, id: UserId, password: string, now: int)
    requires Invariant(store) && id in store.users
    requires crypto.passwordMatches(password, store.users[id].passwordHash)
    ensures var step := LoginSpec(store, settings, crypto, store.users[id].username, password, now);
      var pair := GetTokens(store.users[id], settings.accessSecret, settings.refreshSecret,
                            settings.accessExpire, settings.refreshExpire, crypto.sign, now);
      && step.result == Success(Tokens(pair.accessToken, pair.refreshToken))
      && step.store.nextId == store.nextId
      && step.store.users.Keys == store.users.Keys
      && step.store.users[id].refreshTokens == store.users[id].refreshTokens + [pair.refreshToken]
      && step.store.users[id].(refreshTokens := store.users[id].refreshTokens) == store.users[id]
      && (forall other :: other in store.users && other != id ==> step.store.users[other] == store.users[other])
  {
    assert FindByUsername(store.users, store.users[id].username) == Some(id);
  }

  // ---------------------------------------------------------------- logout and tokenRefresh guards

  /**
   * Both cookie handlers fail alike, in this order and with 400 each: no
   * cookie, a cookie that does not verify, a cookie whose user is gone or
   * whose user's list no longer holds it. A failure changes nothing.
   */
  lemma CookieGuards(store: Store, settings: Settings, crypto: Crypto, cookie: Option<string>, now: int)
    requires Invariant(store)
    ensures var out, refresh := LogoutSpec(store, settings, crypto, cookie), RefreshSpec(store, settings, crypto, cookie, now);
      && (cookie.None? || cookie.value == "" ==>
            out == refresh == Step(Failure(BadRequestError("refresh token not found")), store))
      && (cookie.Some? && cookie.value != "" && crypto.verify(cookie.value, settings.refreshSecret).None? ==>
            out == refresh == Step(Failure(BadRequestError("Invalid refresh token")), store))
      && (cookie.Some? && cookie.value != "" && crypto.verify(cookie.value, settings.refreshSecret).Some? ==>
            var id := crypto.verify(cookie.value, settings.refreshSecret).value.id;
            id !in store.users || cookie.value !in store.users[id].refreshTokens ==>
              out == refresh == Step(Failure(BadRequestError("User not found")), store))
      && (out.result.Failure? ==> out.result.error.statusCode == Some(400))
      && (refresh.result.Failure? ==> refresh.result.error.statusCode == Some(400))
  {
  }

  /**
   * A successful logout leaves the owner's list filtered in order: the
   * presented token is gone, every other token stays as often as it was;
   * nothing else in the store changes.
   */
  lemma LogoutRemovesEveryCopy(store: Store, settings: Settings, crypto: Crypto, cookie: Option<string>)
    requires Invariant(store)
    requires LogoutSpec(store, settings, crypto, cookie).result.Success?
    ensures cookie.Some?
    ensures var id := crypto.verify(cookie.value, settings.refreshSecret).value.id;
      var step := LogoutSpec(store, settings, crypto, cookie);
      && id in store.users && cookie.value in store.users[id].refreshTokens
      && step.result == Success(Message("Logged out successfully"))
      && step.store.nextId == store.nextId && step.store.users.Keys == store.users.Keys
      && cookie.value !in step.store.users[id].refreshTokens
      && multiset(step.store.users[id].refreshTokens) == multiset(store.users[id].refreshTokens)[cookie.value := 0]
      && step.store.users[id].refreshTokens == RemoveAll(store.users[id].refreshTokens, cookie.value)
      && (forall other :: other in store.users && other != id ==> step.store.users[other] == store.users[other])
  {
    var id := crypto.verify(cookie.value, settings.refreshSecret).value.id;
    RemoveAllCounts(store.users[id].refreshTokens, cookie.value);
  }

  /** After a logout, the same cookie neither refreshes nor logs out again: 400 "User not found". */
  lemma LogoutThenRefreshFails(store: Store, settings: Settings, crypto: Crypto, cookie: Option<string>, now: int)
    requires Invariant(store)
    requires LogoutSpec(store, settings, crypto, cookie).result.Success?
    ensures var after := LogoutSpec(store, settings, crypto, cookie).store;
      && RefreshSpec(after, settings, crypto, cookie, now) == Step(Failure(BadRequestError("User not found")), after)
      && LogoutSpec(after, settings, crypto, cookie) == Step(Failure(BadRequestError("User not found")), after)
  {
    LogoutRemovesEveryCopy(store, settings, crypto, cookie);
  }

  /**
   * A successful refresh appends the new refresh token and keeps the
   * presented one, so the old list is a prefix of the new one and the old
   * cookie still refreshes. The cookie set is the new refresh token, its
   * `maxAge` the parsed refresh expiry, and the body the access token.
   */
  lemma RefreshKeepsPresentedToken(store: Store, settings: Settings, crypto: Crypto, cookie: Option<string>, now: int)
    requires Invariant(store)
    requires RefreshSpec(store, settings, crypto, cookie, now).result.Success?
    ensures cookie.Some?
    ensures var id := crypto.verify(cookie.value, settings.refreshSecret).value.id;
      var step := RefreshSpec(store, settings, crypto, cookie, now);
      var pair := GetTokens(store.users[id], settings.accessSecret, settings.refreshSecret,
                            settings.accessExpire, settings.refreshExpire, crypto.sign, now);
      && id in store.users
      && step.result == Success(Refreshed(pair.accessToken, pair.refreshToken, GetExpiryTime(settings.refreshExpire)))
      && step.store.users[id].refreshTokens == store.users[id].refreshTokens + [pair.refreshToken]
      && store.users[id].refreshTokens <= step.store.users[id].refreshTokens
      && cookie.value in step.store.users[id].refreshTokens
      && (forall other :: other in store.users && other != id ==> step.store.users[other] == store.users[other])
      && RefreshSpec(step.store, settings, crypto, cookie, now).result.Success?
  {
    var id := crypto.verify(cookie.value, settings.refreshSecret).value.id;
    var step := RefreshSpec(store, settings, crypto, cookie, now);
    assert cookie.value in store.users[id].refreshTokens;
    assert cookie.value in step.store.users[id].refreshTokens;
  }

  /** Under a validated configuration the cookie's `maxAge` is a number of milliseconds, never the raw default. */
  lemma RefreshCookieMaxAge(env: Env, store: Store, crypto: Crypto, cookie: Option<string>, now: int)
    requires Validate(env) == Pass && Invariant(store)
    ensures var step := RefreshSpec(store, SettingsOf(env), crypto, cookie, now);
      step.result.Success? ==> step.result.value.Refreshed? && step.result.value.maxAge.Millis? && step.result.value.maxAge.ms >= 0
  {
    ValidatedExpiriesAreMillis(env);
  }

  // ---------------------------------------------------------------- register

  /**
   * Registering a new, non-empty name adds exactly one user, under the next
   * id, holding the hash of the password and no tokens or roles.
   */
  lemma RegisterAddsOneUser(store: Store, crypto: Crypto, username: string, password: string, salt: string)
    requires Invariant(store) && username != ""
    requires forall id :: id in store.users ==> store.users[id].username != username
    ensures var step := RegisterSpec(store, crypto, username, password, salt);
      && step.result == Success(Message("successfully created : " + username))
      && store.nextId !in store.users
      && step.store.users.Keys == store.users.Keys + {store.nextId}
      && step.store.users[store.nextId] == User(store.nextId, username, crypto.hash(password, salt), [], [])
      && (forall id :: id in store.users ==> step.store.users[id] == store.users[id])
      && step.store.nextId == store.nextId + 1
  {
  }

  /**
   * Registering a name a second time fails with a library error that has no
   * status code, so the responder leaves the status undefined; an empty
   * name fails alike.
   */
  lemma RegisterTakenName(store: Store, crypto: Crypto, id: UserId, password: string, salt: string)
    requires Invariant(store) && id in store.users
    ensures var step := RegisterSpec(store, crypto, store.users[id].username, password, salt);
      && step == Step(Failure(ForeignError(DUPLICATE_KEY)), store)
      && GlobalErrorHandler(step.result.error).statusCode == None
    ensures RegisterSpec(store, crypto, "", password, salt) == Step(Failure(ForeignError(USERNAME_REQUIRED)), store)
  {
    assert FindByUsername(store.users, store.users[id].username) == Some(id);
  }

  // ---------------------------------------------------------------- across handlers

  /** Registering and then logging in with the same password succeeds, and the new user holds that one refresh token. */
  lemma RegisterThenLogin(store: Store, settings: Settings, crypto: Crypto, username: string, password: string, salt: string, now: int)
    requires Invariant(store) && username != "" && PasswordSound(crypto)
    requires forall id :: id in store.users ==> store.users[id].username != username
    ensures var registered := RegisterSpec(store, crypto, username, password, salt).store;
      var step := LoginSpec(registered, settings, crypto, username, password, now);
      && step.result.Success?
      && step.store.users[store.nextId].refreshTokens == [step.result.value.refreshToken]
  {
    var registered := RegisterSpec(store, crypto, username, password, salt).store;
    RegisterAddsOneUser(store, crypto, username, password, salt);
    assert crypto.passwordMatches(password, crypto.hash(password, salt));
    LoginAppends(registered, settings, crypto, store.nextId, password, now);
  }

  /**
   * With a verifier that accepts what the signer made, the refresh token a
   * login hands out refreshes at once.
   */
  lemma LoginThenRefresh(store: Store, settings: Settings, crypto: Crypto, id: UserId, password: string, now: int)
    requires Invariant(store) && id in store.users
    requires SignVerifies(crypto.sign, crypto.verify) && TokensNonEmpty(crypto.sign)
    requires crypto.passwordMatches(password, store.users[id].passwordHash)
    ensures var login := LoginSpec(store, settings, crypto, store.users[id].username, password, now);
      && login.result.Success?
      && RefreshSpec(login.store, settings, crypto, Some(login.result.value.refreshToken), now).result.Success?
  {
    LoginAppends(store, settings, crypto, id, password, now);
    var login := LoginSpec(store, settings, crypto, store.users[id].username, password, now);
    var token := login.result.value.refreshToken;
    assert crypto.verify(token, settings.refreshSecret) == Some(Payload(store.users[id]));
    assert token in login.store.users[id].refreshTokens;
  }

  /**
   * Two logins of one user in the same second hand out the same refresh
   * token, which then sits twice in the user's list.
   */
  lemma LoginsInOneSecondCollide(store: Store, settings: Settings, crypto: Crypto, id: UserId, password: string, now: int)
    requires Invariant(store) && id in store.users
    requires crypto.passwordMatches(password, store.users[id].passwordHash)
    ensures var first := LoginSpec(store, settings, crypto, store.users[id].username, password, now);
      var second := LoginSpec(first.store, settings, crypto, store.users[id].username, password, now);
      && first.result.Success? && second.result.Success?
      && first.result.value.refreshToken == second.result.value.refreshToken
      && second.store.users[id].refreshTokens
         == store.users[id].refreshTokens + [first.result.value.refreshToken, first.result.value.refreshToken]
  {
    var username := store.users[id].username;
    LoginAppends(store, settings, crypto, id, password, now);
    var first := LoginSpec(store, settings, crypto, username, password, now);
    assert first.store.users[id].(refreshTokens := store.users[id].refreshTokens) == store.users[id];
    LoginAppends(first.store, settings, crypto, id, password, now);
  }

  /**
   * Sessions opened in different seconds are independent: after logging in
   * on two devices, logging out on the first leaves the second's refresh
   * token working: a refresh with it in the second it was issued succeeds.
   */
  lemma LogoutKeepsOtherSessions(store: Store, settings: Settings, crypto: Crypto, id: UserId, password: string,
                                 t: int, t': int)
    requires Invariant(store) && id in store.users && t != t'
    requires SignVerifies(crypto.sign, crypto.verify) && TokensNonEmpty(crypto.sign) && IssueTimeSeparates(crypto.sign)
    requires crypto.passwordMatches(password, store.users[id].passwordHash)
    ensures var first := LoginSpec(store, settings, crypto, store.users[id].username, password, t);
      var second := LoginSpec(first.store, settings, crypto, store.users[id].username, password, t');
      && first.result.Success? && second.result.Success?
      && first.result.value.refreshToken != second.result.value.refreshToken
      && var out := LogoutSpec(second.store, settings, crypto, Some(first.result.value.refreshToken));
         && out.result.Success?
         && RefreshSpec(out.store, settings, crypto, Some(second.result.value.refreshToken), t').result.Success?
  {
    var username := store.users[id].username;
    LoginAppends(store, settings, crypto, id, password, t);
    var first := LoginSpec(store, settings, crypto, username, password, t);
    assert first.store.users[id].(refreshTokens := store.users[id].refreshTokens) == store.users[id];
    LoginAppends(first.store, settings, crypto, id, password, t');
    var second := LoginSpec(first.store, settings, crypto, username, password, t');
    var tokenA, tokenB := first.result.value.refreshToken, second.result.value.refreshToken;
    assert Payload(first.store.users[id]) == Payload(store.users[id]);
    assert tokenA != tokenB;
    assert crypto.verify(tokenA, settings.refreshSecret) == Some(Payload(store.users[id]));
    assert crypto.verify(tokenB, settings.refreshSecret) == Some(Payload(store.users[id]));
    assert second.store.users[id].refreshTokens == store.users[id].refreshTokens + [tokenA] + [tokenB];
    var out := LogoutSpec(second.store, settings, crypto, Some(tokenA));
    assert out.result.Success?;
    assert tokenB in out.store.users[id].refreshTokens;
  }

  // ---------------------------------------------------------------- the service

  /** The auth server's handlers over its user collection. */
  class AuthService {
    var users: map<UserId, User>
    var nextId: nat
    const settings: Settings
    const crypto: Crypto

    ghost function State(): Store
      reads this
    {
      Store(users, nextId)
    }

    ghost predicate Valid()
      reads this
    {
      Invariant(State())
    }

    /** The server starts after the configuration has been validated, over the collection as it stands. */
    constructor (env: Env, crypto: Crypto, store: Store)
      requires Validate(env) == Pass && Invariant(store)
      ensures Valid() && State() == store
      ensures settings == SettingsOf(env) && this.crypto == crypto
    {
      users := store.users;
      nextId := store.nextId;
      settings := SettingsOf(env);
      this.crypto := crypto;
    }

    /** `login`, run at the second `now` of the clock. */
    method Login(username: string, password: string, now: int) returns (result: Result<Reply, ErrorValue>)
      requires Valid()
      modifies this
      ensures Valid()
      ensures Step(result, State()) == LoginSpec(old(State()), settings, crypto, username, password, now)
    {
      var found := FindByUsername(users, username);
      if found.None? {
        return Failure(BadRequestError("No user found"));
      }
      var user := users[found.value];
      var isMatch := crypto.passwordMatches(password, user.passwordHash);
      if !isMatch {
        return Failure(IncorrectPassword());
      }
      var tokens := GetTokens(user, settings.accessSecret, settings.refreshSecret,
                              settings.accessExpire, settings.refreshExpire, crypto.sign, now);
      user := user.(refreshTokens := user.refreshTokens + [tokens.refreshToken]);
      users := users[found.value := user];
      result := Success(Tokens(tokens.accessToken, tokens.refreshToken));
    }

    method Register(username: string, password: string, salt: string) returns (result: Result<Reply, ErrorValue>)
      requires Valid()
      modifies this
      ensures Valid()
      ensures Step(result, State()) == RegisterSpec(old(State()), crypto, username, password, salt)
    {
      var hasPassword := crypto.hash(password, salt);
      if username == "" {
        return Failure(ForeignError(USERNAME_REQUIRED));
      }
      if FindByUsername(users, username).Some? {
        return Failure(ForeignError(DUPLICATE_KEY));
      }
      var user := User(nextId, username, hasPassword, [], []);
      users := users[nextId := user];
      nextId := nextId + 1;
      result := Success(Message("successfully created : " + user.username));
    }

    /** The guards shared by `Logout` and `TokenRefresh`, on the current collection. */
    method FindTokenOwner(cookie: Option<string>) returns (owner: Result<UserId, ErrorValue>)
      ensures owner == RefreshTokenOwner(State(), settings, crypto, cookie)
    {
      if cookie.None? || cookie.value == "" {
        return Failure(BadRequestError("refresh token not found"));
      }
      var decoded := crypto.verify(cookie.value, settings.refreshSecret);
      if decoded.None? {
        return Failure(BadRequestError("Invalid refresh token"));
      }
      if decoded.value.id !in users || cookie.value !in users[decoded.value.id].refreshTokens {
        return Failure(BadRequestError("User not found"));
      }
      owner := Success(decoded.value.id);
    }

    method Logout(cookie: Option<string>) returns (result: Result<Reply, ErrorValue>)
      requires Valid()
      modifies this
      ensures Valid()
      ensures Step(result, State()) == LogoutSpec(old(State()), settings, crypto, cookie)
    {
      var owner := FindTokenOwner(cookie);
      if owner.Failure? {
        return Failure(owner.error);
      }
      var user := users[owner.value];
      user := user.(refreshTokens := RemoveAll(user.refreshTokens, cookie.value));
      users := users[owner.value := user];
      result := Success(Message("Logged out successfully"));
    }

    /** `tokenRefresh`, run at the second `now` of the clock. */
    method TokenRefresh(cookie: Option<string>, now: int) returns (result: Result<Reply, ErrorValue>)
      requires Valid()
      modifies this
      ensures Valid()
      ensures Step(result, State()) == RefreshSpec(old(State()), settings, crypto, cookie, now)
    {
      var owner := FindTokenOwner(cookie);
      if owner.Failure? {
        return Failure(owner.error);
      }
      var user := users[owner.value];
      var tokens := GetTokens(user, settings.accessSecret, settings.refreshSecret,
                              settings.accessExpire, settings.refreshExpire, crypto.sign, now);
      user := user.(refreshTokens := user.refreshTokens + [tokens.refreshToken]);
      users := users[owner.value := user];
      var maxAge := GetExpiryTime(settings.refreshExpire);
      result := Success(Refreshed(tokens.accessToken, tokens.refreshToken, maxAge));
    }
  }
}

=== FILE: config.dfy ===
/**
 * The start-up configuration check (src/config/index.js): an ordered chain
 * of guards over the environment, the first failing one deciding the error.
 */
module Config {
  import opened Wrappers
  import opened JsText
  import opened TokenUtil

  /** The process environment: variable name to value. */
  type Env = map<string, string>

  /** `process.env[name]` is truthy: set and not the empty string. */
  predicate Present(env: Env, name: string) {
    name in env && env[name] != ""
  }

  /** `/^\d+[smhd]$/.test(s)`: one or more ASCII digits, then exactly one of four lowercase units. */
  predicate ExpiryFormat(s: string) {
    |s| >= 2 && AllDigits(s[..|s| - 1]) && s[|s| - 1] in "smhd"
  }

  function RequiredMessage(name: string): string {
    name + " is required"
  }

  function FormatMessage(name: string): string {
    name + " is required and must be in valid JWT time format (e.g., 30s, 10m, 24h, 7d)"
  }

  /** The guards of src/config/index.js, in the order they run. */
  function Validate(env: Env): Outcome<string> {
    if !Present(env, "PORT") then Fail(RequiredMessage("PORT"))
    else if !Present(env, "AUTHPORT") then Fail(RequiredMessage("AUTHPORT"))
    else if !Present(env, "MONGODB") then Fail(RequiredMessage("MONGODB"))
    else if !Present(env, "ACCESS_TOKEN_SECRET") then Fail(RequiredMessage("ACCESS_TOKEN_SECRET"))
    else if !Present(env, "REFRESH_TOKEN_SECRET") then Fail(RequiredMessage("REFRESH_TOKEN_SECRET"))
    else if !Present(env, "ACCESS_TOKEN_EXPIRE") then Fail(RequiredMessage("ACCESS_TOKEN_EXPIRE"))
    else if !ExpiryFormat(env["ACCESS_TOKEN_EXPIRE"]) then Fail(FormatMessage("ACCESS_TOKEN_EXPIRE"))
    else if !Present(env, "REFRESH_TOKEN_EXPIRE") then Fail(RequiredMessage("REFRESH_TOKEN_EXPIRE"))
    else if !ExpiryFormat(env["REFRESH_TOKEN_EXPIRE"]) then Fail(FormatMessage("REFRESH_TOKEN_EXPIRE"))
    else Pass
  }

  // ---------------------------------------------------------------- the chain as data

  /** One guard: a variable must be set, or an expiry must have the duration format. */
  datatype Guard = Presence(name: string) | Format(name: string)

  const GUARDS: seq<Guard> := [
    Presence("PORT"), Presence("AUTHPORT"), Presence("MONGODB"),
    Presence("ACCESS_TOKEN_SECRET"), Presence("REFRESH_TOKEN_SECRET"),
    Presence("ACCESS_TOKEN_EXPIRE"), Format("ACCESS_TOKEN_EXPIRE"),
    Presence("REFRESH_TOKEN_EXPIRE"), Format("REFRESH_TOKEN_EXPIRE")
  ]

  predicate Holds(env: Env, g: Guard) {
    match g
    case Presence(name) => Present(env, name)
    case Format(name) => name in env && ExpiryFormat(env[name])
  }

  function Message(g: Guard): string {
    match g
    case Presence(name) => RequiredMessage(name)
    case Format(name) => FormatMessage(name)
  }

  /** Running guards in order: the first that does not hold throws its message. */
  function FirstFailure(env: Env, guards: seq<Guard>): Outcome<string> {
    if guards == [] then Pass
    else if !Holds(env, guards[0]) then Fail(Message(guards[0]))
    else FirstFailure(env, guards[1..])
  }

  /** One step of the chain, from the `k`-th guard on. */
  lemma FirstFailureStep(env: Env, k: nat)
    requires k < |GUARDS|
    ensures FirstFailure(env, GUARDS[k..])
         == if !Holds(env, GUARDS[k]) then Fail(Message(GUARDS[k])) else FirstFailure(env, GUARDS[k + 1..])
  {
    assert GUARDS[k..][1..] == GUARDS[k + 1..];
  }

  /** The last guard: the refresh expiry is well formed. */
  lemma RefreshExpiryFormatGuard(env: Env)
    ensures FirstFailure(env, GUARDS[8..])
         == if !Holds(env, Format("REFRESH_TOKEN_EXPIRE")) then Fail(FormatMessage("REFRESH_TOKEN_EXPIRE")) else Pass
  {
    FirstFailureStep(env, 8);
    assert GUARDS[9..] == [];
  }

  /** The seventh guard: the access expiry is well formed. */
  lemma AccessExpiryFormatGuard(env: Env)
    ensures FirstFailure(env, GUARDS[6..])
         == if !Holds(env, Format("ACCESS_TOKEN_EXPIRE")) then Fail(FormatMessage("ACCESS_TOKEN_EXPIRE")) else FirstFailure(env, GUARDS[7..])
  {
    FirstFailureStep(env, 6);
  }

  /** The sixth guard: the access expiry is set. */
  lemma AccessExpiryPresenceGuard(env: Env)
    ensures FirstFailure(env, GUARDS[5..])
         == if !Holds(env, Presence("ACCESS_TOKEN_EXPIRE")) then Fail(RequiredMessage("ACCESS_TOKEN_EXPIRE")) else FirstFailure(env, GUARDS[6..])
  {
    FirstFailureStep(env, 5);
  }

  /** The last two guards: the refresh expiry is set, then well formed. */
  lemma RefreshExpiryGuards(env: Env)
    ensures FirstFailure(env, GUARDS[7..])
         == if !Present(env, "REFRESH_TOKEN_EXPIRE") then Fail(RequiredMessage("REFRESH_TOKEN_EXPIRE"))
            else if !ExpiryFormat(env["REFRESH_TOKEN_EXPIRE"]) then Fail(FormatMessage("REFRESH_TOKEN_EXPIRE"))
            else Pass
  {
    FirstFailureStep(env, 7);
    RefreshExpiryFormatGuard(env);
  }

  /** The four expiry guards, from the sixth on. */
  lemma ExpiryGuards(env: Env)
    ensures FirstFailure(env, GUARDS[5..])
         == if !Present(env, "ACCESS_TOKEN_EXPIRE") then Fail(RequiredMessage("ACCESS_TOKEN_EXPIRE"))
            else if !ExpiryFormat(env["ACCESS_TOKEN_EXPIRE"]) then Fail(FormatMessage("ACCESS_TOKEN_EXPIRE"))
            else FirstFailure(env, GUARDS[7..])
  {
    AccessExpiryPresenceGuard(env);
    AccessExpiryFormatGuard(env);
  }

  /** The straight-line checks are exactly the ordered guard chain. */
  lemma ValidateIsGuardChain(env: Env)
    ensures Validate(env) == FirstFailure(env, GUARDS)
  {
    assert GUARDS[0..] == GUARDS;
    FirstFailureStep(env, 0);
    FirstFailureStep(env, 1);
    FirstFailureStep(env, 2);
    FirstFailureStep(env, 3);
    FirstFailureStep(env, 4);
    ExpiryGuards(env);
    RefreshExpiryGuards(env);
  }

  /** The first guard that fails decides the message, whatever the later ones would say. */
  lemma {:induction false} FirstFailingGuardDecides(env: Env, guards: seq<Guard>, i: nat)
    requires i < |guards| && !Holds(env, guards[i])
    requires forall j :: 0 <= j < i ==> Holds(env, guards[j])
    ensures FirstFailure(env, guards) == Fail(Message(guards[i]))
  {
    if i > 0 {
      assert Holds(env, guards[0]);
      FirstFailingGuardDecides(env, guards[1..], i - 1);
    }
  }

  /** The chain passes exactly when every guard holds. */
  lemma {:induction false} ChainPassesIffAllHold(env: Env, guards: seq<Guard>)
    ensures FirstFailure(env, guards) == Pass <==> forall j :: 0 <= j < |guards| ==> Holds(env, guards[j])
  {
    if guards != [] {
      ChainPassesIffAllHold(env, guards[1..]);
      if Holds(env, guards[0]) {
        forall j | 0 < j < |guards| ensures guards[j] == guards[1..][j - 1] { }
      }
    }
  }

  /**
   * When the configuration is rejected, the message is that of the first
   * guard that fails, in the order PORT, AUTHPORT, MONGODB,
   * ACCESS_TOKEN_SECRET, REFRESH_TOKEN_SECRET, ACCESS_TOKEN_EXPIRE (presence,
   * then format), REFRESH_TOKEN_EXPIRE (presence, then format).
   */
  lemma ValidateReportsFirstFailure(env: Env, i: nat)
    requires i < |GUARDS| && !Holds(env, GUARDS[i])
    requires forall j :: 0 <= j < i ==> Holds(env, GUARDS[j])
    ensures Validate(env) == Fail(Message(GUARDS[i]))
  {
    ValidateIsGuardChain(env);
    FirstFailingGuardDecides(env, GUARDS, i);
  }

  /**
   * The configuration is accepted exactly when all seven variables are set
   * and both expiries have the duration format.
   */
  lemma ValidateAcceptsExactly(env: Env)
    ensures Validate(env) == Pass <==>
      && Present(env, "PORT") && Present(env, "AUTHPORT") && Present(env, "MONGODB")
      && Present(env, "ACCESS_TOKEN_SECRET") && Present(env, "REFRESH_TOKEN_SECRET")
      && Present(env, "ACCESS_TOKEN_EXPIRE") && ExpiryFormat(env["ACCESS_TOKEN_EXPIRE"])
      && Present(env, "REFRESH_TOKEN_EXPIRE") && ExpiryFormat(env["REFRESH_TOKEN_EXPIRE"])
  {
    ValidateIsGuardChain(env);
    ChainPassesIffAllHold(env, GUARDS);
    assert Holds(env, GUARDS[0]) == Present(env, "PORT");
    assert Holds(env, GUARDS[6]) == ("ACCESS_TOKEN_EXPIRE" in env && ExpiryFormat(env["ACCESS_TOKEN_EXPIRE"]));
  }

  /**
   * An empty or missing expiry reports "... is required", not the format
   * message: presence is checked before format.
   */
  lemma MissingExpiryReportsRequired(env: Env)
    requires Present(env, "PORT") && Present(env, "AUTHPORT") && Present(env, "MONGODB")
    requires Present(env, "ACCESS_TOKEN_SECRET") && Present(env, "REFRESH_TOKEN_SECRET")
    ensures !Present(env, "ACCESS_TOKEN_EXPIRE") ==> Validate(env) == Fail("ACCESS_TOKEN_EXPIRE is required")
    ensures Present(env, "ACCESS_TOKEN_EXPIRE") && ExpiryFormat(env["ACCESS_TOKEN_EXPIRE"]) && !Present(env, "REFRESH_TOKEN_EXPIRE")
        ==> Validate(env) == Fail("REFRESH_TOKEN_EXPIRE is required")
    ensures "ACCESS_TOKEN_EXPIRE" in env && env["ACCESS_TOKEN_EXPIRE"] == "" ==> Validate(env) == Fail("ACCESS_TOKEN_EXPIRE is required")
  {
    assert RequiredMessage("ACCESS_TOKEN_EXPIRE") == "ACCESS_TOKEN_EXPIRE is required";
    assert RequiredMessage("REFRESH_TOKEN_EXPIRE") == "REFRESH_TOKEN_EXPIRE is required";
  }

  /** "7d" is accepted; "7D", "7" and "7dd" are not. */
  lemma ExpiryFormatExamples()
    ensures ExpiryFormat("7d") && ExpiryFormat("30s") && ExpiryFormat("10m") && ExpiryFormat("24h")
    ensures !ExpiryFormat("7D") && !ExpiryFormat("7") && !ExpiryFormat("7dd") && !ExpiryFormat("d")
  {
    assert "7dd"[1] == 'd';
  }

  /**
   * Every expiry the format check accepts is parsed to its digits times its
   * unit's multiplier: a non-negative number of milliseconds, never the raw
   * default.
   */
  lemma FormattedExpiryParses(s: string)
    requires ExpiryFormat(s)
    ensures s[|s| - 1] in TIME_UNITS
    ensures GetExpiryTime(Str(s)) == Millis(DecimalValue(s[..|s| - 1]) * TIME_UNITS[s[|s| - 1]])
    ensures GetExpiryTime(Str(s)).ms >= 0
  {
    var digits, unit := s[..|s| - 1], s[|s| - 1];
    assert s == digits + [unit];
    DigitsThenUnit(digits, unit);
  }

  // ---------------------------------------------------------------- settings

  /** What the handlers read from the environment once it has been validated. */
  datatype Settings = Settings(accessSecret: string, refreshSecret: string, accessExpire: ExpiryInput, refreshExpire: ExpiryInput)

  function SettingsOf(env: Env): (s: Settings)
    requires Validate(env) == Pass
    ensures s.accessSecret != "" && s.refreshSecret != ""
    ensures s.accessExpire.Str? && ExpiryFormat(s.accessExpire.text)
    ensures s.refreshExpire.Str? && ExpiryFormat(s.refreshExpire.text)
  {
    Settings(env["ACCESS_TOKEN_SECRET"], env["REFRESH_TOKEN_SECRET"],
             Str(env["ACCESS_TOKEN_EXPIRE"]), Str(env["REFRESH_TOKEN_EXPIRE"]))
  }

  /** Under a validated environment both expiries parse to milliseconds. */
  lemma ValidatedExpiriesAreMillis(env: Env)
    requires Validate(env) == Pass
    ensures GetExpiryTime(SettingsOf(env).accessExpire).Millis?
    ensures GetExpiryTime(SettingsOf(env).refreshExpire).Millis?
    ensures GetExpiryTime(SettingsOf(env).accessExpire).ms >= 0 && GetExpiryTime(SettingsOf(env).refreshExpire).ms >= 0
  {
    FormattedExpiryParses(env["ACCESS_TOKEN_EXPIRE"]);
    FormattedExpiryParses(env["REFRESH_TOKEN_EXPIRE"]);
  }
}

=== FILE: errors.dfy ===
/**
 * The error taxonomy of the service and its single responder
 * (src/utils/error.js): the `Exception` base class with its defaults, its
 * six subclasses, and `globalErrorHandler`, which turns any error passed
 * to `next(e)` into a status code and a `{status, message, data}` body.
 */
module Errors {
  import opened Wrappers

  /** A JSON object carried as `data` (only `{}` arises in the service). */
  type Data = map<string, string>

  const EMPTY_DATA: Data := map[]

  /** The six subclasses of `Exception`. */
  datatype Kind = BadRequest | Unauthorized | Forbidden | NotFound | ValidationError | InternalServerError

  /** The status code each subclass passes to the base constructor. */
  function StatusCode(kind: Kind): int {
    match kind
    case BadRequest => 400
    case Unauthorized => 401
    case Forbidden => 403
    case NotFound => 404
    case ValidationError => 422
    case InternalServerError => 500
  }

  /** The `status` label each subclass passes to the base constructor. */
  function Label(kind: Kind): string {
    match kind
    case BadRequest => "BadRequest"
    case Unauthorized => "Unauthorized"
    case Forbidden => "Forbidden"
    case NotFound => "NotFound"
    case ValidationError => "Validation Error"
    case InternalServerError => "InternalServerError"
  }

  /** The subclass whose status code is `code`, if any: the inverse of `StatusCode`. */
  function KindOfStatusCode(code: int): (kind: Option<Kind>)
    ensures kind.Some? ==> StatusCode(kind.value) == code
  {
    if code == 400 then Some(BadRequest)
    else if code == 401 then Some(Unauthorized)
    else if code == 403 then Some(Forbidden)
    else if code == 404 then Some(NotFound)
    else if code == 422 then Some(ValidationError)
    else if code == 500 then Some(InternalServerError)
    else None
  }

  /**
   * Any value that reaches the responder, seen through the four properties
   * it reads; `None` is a property that is `undefined`.
   */
  datatype ErrorValue = ErrorValue(message: Option<string>, statusCode: Option<int>, status: Option<string>, data: Option<Data>)

  /** `new Exception(message, statusCode = 404, status = 'error', data = {})`: a default replaces only an omitted argument. */
  function Exception(message: Option<string>, statusCode: Option<int>, status: Option<string>, data: Option<Data>): ErrorValue {
    ErrorValue(message, Some(statusCode.GetOr(404)), Some(status.GetOr("error")), Some(data.GetOr(EMPTY_DATA)))
  }

  /** `new BadRequestException(message, data)` and its five siblings. */
  function SubclassException(kind: Kind, message: Option<string>, data: Option<Data>): ErrorValue {
    Exception(message, Some(StatusCode(kind)), Some(Label(kind)), data)
  }

  /** An error raised by a library rather than by the service: it carries a message only. */
  function ForeignError(message: string): ErrorValue {
    ErrorValue(Some(message), None, None, None)
  }

  /** The response body `{status, message, data}`. */
  datatype Body = Body(status: string, message: string, data: Data)

  /** What the responder writes: the status code (None when `err.statusCode` is undefined) and the body. */
  datatype Response = Response(statusCode: Option<int>, body: Body)

  predicate Truthy(s: Option<string>) {
    s.Some? && s.value != ""
  }

  /**
   * `globalErrorHandler`: the status code is taken verbatim; each body field
   * falls back on its own when the error's property is falsy.
   */
  function GlobalErrorHandler(err: ErrorValue): (r: Response)
    ensures r.statusCode == err.statusCode
    ensures r.body.status != "" && r.body.message != ""
  {
    Response(
      err.statusCode,
      Body(
        if Truthy(err.status) then err.status.value else "error",
        if Truthy(err.message) then err.message.value else "Something went wrong",
        err.data.GetOr(EMPTY_DATA)))
  }

  /** The base class defaults to 404, `'error'` and `{}`; explicit arguments are kept as given. */
  lemma ExceptionDefaults(message: Option<string>, statusCode: Option<int>, status: Option<string>, data: Option<Data>)
    ensures Exception(message, None, None, None) == ErrorValue(message, Some(404), Some("error"), Some(map[]))
    ensures var e := Exception(message, statusCode, status, data);
      && e.message == message
      && (statusCode.Some? ==> e.statusCode == statusCode)
      && (status.Some? ==> e.status == status)
      && (data.Some? ==> e.data == data)
  {
  }

  /** Each subclass fixes its code and label, and one built without `data` carries `{}`. */
  lemma SubclassFields(kind: Kind, message: Option<string>)
    ensures var e := SubclassException(kind, message, None);
      && e == ErrorValue(message, Some(StatusCode(kind)), Some(Label(kind)), Some(map[]))
      && (kind == BadRequest ==> e.statusCode == Some(400) && e.status == Some("BadRequest"))
      && (kind == Unauthorized ==> e.statusCode == Some(401) && e.status == Some("Unauthorized"))
      && (kind == Forbidden ==> e.statusCode == Some(403) && e.status == Some("Forbidden"))
      && (kind == NotFound ==> e.statusCode == Some(404) && e.status == Some("NotFound"))
      && (kind == ValidationError ==> e.statusCode == Some(422) && e.status == Some("Validation Error"))
      && (kind == InternalServerError ==> e.statusCode == Some(500) && e.status == Some("InternalServerError"))
  {
  }

  /** No two subclasses share a status code or a label. */
  lemma KindsAreDistinguishable(kind: Kind, other: Kind)
    ensures KindOfStatusCode(StatusCode(kind)) == Some(kind)
    ensures kind != other ==> StatusCode(kind) != StatusCode(other) && Label(kind) != Label(other)
  {
  }

  /** An error of a subclass is answered with that subclass's code and label. */
  lemma RespondToSubclass(kind: Kind, message: string, data: Option<Data>)
    ensures GlobalErrorHandler(SubclassException(kind, Some(message), data))
         == Response(Some(StatusCode(kind)),
                     Body(Label(kind), if message == "" then "Something went wrong" else message, data.GetOr(map[])))
  {
  }

  /**
   * An error without a `statusCode`, such as the Mongoose and MongoDB
   * errors of `register`, leaves the status code undefined, while the body
   * still falls back to `'error'` and `{}`.
   */
  lemma RespondToForeignError(message: string)
    ensures var r := GlobalErrorHandler(ForeignError(message));
      && r.statusCode == None
      && r.body.status == "error"
      && r.body.data == map[]
      && r.body.message == (if message == "" then "Something went wrong" else message)
  {
  }

  /** Whatever the error, the body's status and message are never empty. */
  lemma ResponseBodyIsNeverEmpty(err: ErrorValue)
    ensures GlobalErrorHandler(err).body.status != ""
    ensures GlobalErrorHandler(err).body.message != ""
    ensures err.data.None? ==> GlobalErrorHandler(err).body.data == map[]
  {
  }
}

=== FILE: js_text.dfy ===
/**
 * The JavaScript string primitives the service relies on, stated exactly:
 * `parseInt(s, 10)`, `String(n)` for an integer, `s.split(c)` with a
 * one-character separator, and `toLowerCase()` as far as it matters for
 * a one-character unit.
 */
module JsText {
  import opened Wrappers

  predicate IsDigit(c: char) {
    '0' <= c <= '9'
  }

  function DigitValue(c: char): (d: nat)
    requires IsDigit(c)
    ensures d < 10
  {
    c as int - '0' as int
  }

  function DigitChar(d: nat): (c: char)
    requires d < 10
    ensures IsDigit(c) && DigitValue(c) == d
  {
    ('0' as int + d) as char
  }

  predicate AllDigits(s: string) {
    forall i :: 0 <= i < |s| ==> IsDigit(s[i])
  }

  /** The value of a run of decimal digits, most significant first. */
  function DecimalValue(s: string): nat
    requires AllDigits(s)
  {
    if s == [] then 0 else DecimalValue(s[..|s| - 1]) * 10 + DigitValue(s[|s| - 1])
  }

  /** The longest prefix of `s` made of decimal digits. */
  function DigitPrefix(s: string): (p: string)
    ensures AllDigits(p)
  {
    if s != [] && IsDigit(s[0]) then [s[0]] + DigitPrefix(s[1..]) else []
  }

  /** The digit run is a prefix of the string, and the character after it, if any, is not a digit. */
  lemma {:induction false} DigitPrefixIsLongest(s: string)
    ensures DigitPrefix(s) <= s
    ensures |DigitPrefix(s)| < |s| ==> !IsDigit(s[|DigitPrefix(s)|])
  {
    if s != [] && IsDigit(s[0]) {
      DigitPrefixIsLongest(s[1..]);
      assert DigitPrefix(s) == [s[0]] + DigitPrefix(s[1..]);
    }
  }

  /** ECMAScript's StrWhiteSpaceChar: WhiteSpace (including every Zs character) and LineTerminator. */
  predicate IsJsSpace(c: char) {
    || c == '\t' || c == '\n' || c == '\U{000B}' || c == '\U{000C}' || c == '\r'
    || c == ' ' || c == '\U{00A0}' || c == '\U{1680}' || ('\U{2000}' <= c <= '\U{200A}')
    || c == '\U{2028}' || c == '\U{2029}' || c == '\U{202F}' || c == '\U{205F}'
    || c == '\U{3000}' || c == '\U{FEFF}'
  }

  /** `s` without its leading white space. */
  function TrimStart(s: string): (t: string)
    ensures t == [] || !IsJsSpace(t[0])
  {
    if s != [] && IsJsSpace(s[0]) then TrimStart(s[1..]) else s
  }

  /**
   * `parseInt(s, 10)`: leading white space is skipped, one optional sign is
   * read, then the longest run of decimal digits; no digits gives NaN (None).
   * Whatever follows the digits is ignored.
   */
  function ParseInt(s: string): Option<int> {
    var t := TrimStart(s);
    var negative := |t| > 0 && t[0] == '-';
    var unsigned := if |t| > 0 && (t[0] == '-' || t[0] == '+') then t[1..] else t;
    var digits := DigitPrefix(unsigned);
    if digits == [] then None
    else if negative then Some(-(DecimalValue(digits) as int))
    else Some(DecimalValue(digits))
  }

  /** `String(n)` for a natural number: its decimal digits, no leading zero. */
  function NatToString(n: nat): (s: string)
    ensures |s| >= 1 && AllDigits(s)
    ensures DecimalValue(s) == n
  {
    if n < 10 then [DigitChar(n)]
    else
      var init := NatToString(n / 10);
      var s := init + [DigitChar(n % 10)];
      assert s[..|s| - 1] == init;
      s
  }

  /** `String(n)` for an integer (small enough to be printed without an exponent). */
  function IntToString(n: int): string {
    if n < 0 then "-" + NatToString(-n) else NatToString(n)
  }

  lemma DigitPrefixOfDigits(s: string)
    requires AllDigits(s)
    ensures DigitPrefix(s) == s
  {
  }

  /** A digit string parses to its decimal value. */
  lemma ParseIntOfDigits(s: string)
    requires s != [] && AllDigits(s)
    ensures ParseInt(s) == Some(DecimalValue(s))
  {
    assert IsDigit(s[0]);
    assert TrimStart(s) == s;
    DigitPrefixOfDigits(s);
  }

  /** The digit run stops at the first character that is not a digit. */
  lemma {:induction false} DigitPrefixStops(digits: string, rest: string)
    requires AllDigits(digits)
    requires rest == [] || !IsDigit(rest[0])
    ensures DigitPrefix(digits + rest) == digits
  {
    if digits == [] {
      assert digits + rest == rest;
    } else {
      assert (digits + rest)[0] == digits[0];
      assert (digits + rest)[1..] == digits[1..] + rest;
      DigitPrefixStops(digits[1..], rest);
    }
  }

  /** Digits, then anything not starting with a digit: `parseInt` reads the digits and ignores the rest. */
  lemma ParseIntStopsAtNonDigit(digits: string, rest: string)
    requires digits != [] && AllDigits(digits)
    requires rest == [] || !IsDigit(rest[0])
    ensures ParseInt(digits + rest) == Some(DecimalValue(digits))
  {
    assert (digits + rest)[0] == digits[0];
    assert IsDigit(digits[0]);
    assert TrimStart(digits + rest) == digits + rest;
    DigitPrefixStops(digits, rest);
  }

  /** A minus sign, digits, then anything not starting with a digit: the negated value of the digits. */
  lemma ParseIntNegative(digits: string, rest: string)
    requires digits != [] && AllDigits(digits)
    requires rest == [] || !IsDigit(rest[0])
    ensures ParseInt("-" + (digits + rest)) == Some(-(DecimalValue(digits) as int))
  {
    var unsigned := digits + rest;
    var s := "-" + unsigned;
    assert s[0] == '-' && s[1..] == unsigned;
    assert TrimStart(s) == s;
    DigitPrefixStops(digits, rest);
  }

  /** `parseInt(String(n), 10) == n`: the integer printer and parser are inverse. */
  lemma ParseIntRoundTrip(n: int)
    ensures ParseInt(IntToString(n)) == Some(n)
  {
    if n < 0 {
      var digits := NatToString(-n);
      var s := "-" + digits;
      assert TrimStart(s) == s;
      assert s[1..] == digits;
      DigitPrefixOfDigits(digits);
    } else {
      ParseIntOfDigits(NatToString(n));
    }
  }

  /** `c.toLowerCase()` restricted to the ASCII letters. */
  function LowerAscii(c: char): (l: char)
    ensures 'A' <= c <= 'Z' ==> l as int == c as int + 32
    ensures !('A' <= c <= 'Z') ==> l == c
  {
    if 'A' <= c <= 'Z' then (c as int + 32) as char else c
  }

  /** The index of the first `c` in `s`, or `|s|` when there is none. */
  function FirstIndexOf(s: string, c: char): (k: nat)
    ensures k <= |s| && c !in s[..k]
    ensures k < |s| ==> s[k] == c
  {
    if s == [] || s[0] == c then 0
    else
      var k := 1 + FirstIndexOf(s[1..], c);
      assert s[..k] == [s[0]] + s[1..][..k - 1];
      k
  }

  /** `s.split(sep)` for a one-character separator: every field, empty ones included. */
  function Split(s: string, sep: char): (fields: seq<string>)
    ensures |fields| >= 1
    ensures forall i :: 0 <= i < |fields| ==> sep !in fields[i]
  {
    if s == [] then [[]]
    else
      var rest := Split(s[1..], sep);
      if s[0] == sep then [[]] + rest
      else [[s[0]] + rest[0]] + rest[1..]
  }

  /** `fields.join(sep)`. */
  function Join(fields: seq<string>, sep: char): string
    requires |fields| >= 1
  {
    if |fields| == 1 then fields[0] else fields[0] + [sep] + Join(fields[1..], sep)
  }

  /** Splitting loses nothing: joining the fields again gives back the string. */
  lemma {:induction false} JoinSplit(s: string, sep: char)
    ensures Join(Split(s, sep), sep) == s
  {
    if s != [] {
      var rest := Split(s[1..], sep);
      JoinSplit(s[1..], sep);
      if s[0] == sep {
        assert Split(s, sep)[1..] == rest;
      } else {
        var fields := Split(s, sep);
        assert fields[1..] == rest[1..];
        if |rest| > 1 {
          assert Join(rest, sep) == rest[0] + [sep] + Join(rest[1..], sep);
        }
      }
    }
  }

  /** The first field ends at the first separator; the remaining fields are those of what follows it. */
  lemma {:induction false} SplitAtFirst(s: string, sep: char)
    ensures var k := FirstIndexOf(s, sep);
      && (k == |s| ==> Split(s, sep) == [s])
      && (k < |s| ==> Split(s, sep) == [s[..k]] + Split(s[k + 1..], sep))
  {
    if s != [] && s[0] != sep {
      SplitAtFirst(s[1..], sep);
      var k := FirstIndexOf(s, sep);
      assert s[1..][..k - 1] == s[1..k];
      assert [s[0]] + s[1..k] == s[..k];
      assert [s[0]] + s[1..] == s;
      if k < |s| {
        assert s[1..][k..] == s[k + 1..];
      }
    }
  }
}

=== FILE: jwt_middleware.dfy ===
/**
 * The access gateway in front of the protected routes
 * (src/middleware/jwtMiddleware.js): the root url passes through, every
 * other request must carry a token that verifies against the access secret.
 */
module JwtMiddleware {
  import opened Wrappers
  import opened JsText
  import opened Errors
  import opened TokenUtil

  /** `checkAllowedRoutes(req)`: only the url `/`, compared exactly, bypasses the gateway. */
  predicate CheckAllowedRoutes(url: string) {
    url == "/"
  }

  /**
   * `headers && headers.split(' ')[1]`, followed by the `!token` test: the
   * second space-separated field of the header, when the header is set and
   * that field exists and is not empty. The first field is never looked at.
   */
  function BearerToken(authorization: Option<string>): (token: Option<string>)
    ensures token.Some? ==> authorization.Some? && token.value != "" && ' ' !in token.value
  {
    if authorization.None? || authorization.value == "" then None
    else
      var fields := Split(authorization.value, ' ');
      if |fields| < 2 || fields[1] == "" then None else Some(fields[1])
  }

  /** The error every rejection passes on: `new UnauthorizedException('Unauthorized')`. */
  const UNAUTHORIZED: ErrorValue := SubclassException(Unauthorized, Some("Unauthorized"), None)

  /** How the middleware calls `next`: with no argument, or with an error. */
  datatype NextCall = Next | NextWithError(error: ErrorValue)

  /** The parts of an Express request the middleware reads and writes. */
  class Request {
    const url: string
    const authorization: Option<string>
    var user: Option<Claims>

    constructor (url: string, authorization: Option<string>)
      ensures this.url == url && this.authorization == authorization && user == None
    {
      this.url := url;
      this.authorization := authorization;
      user := None;
    }
  }

  /**
   * `jwtMiddleware(req, res, next)`: the result is the one call made to
   * `next`. An allow-listed url is forwarded untouched; otherwise a missing
   * token or a failed verification is passed on as 401, and a verified token
   * sets `req.user` to its claims before forwarding.
   */
  method Handle(req: Request, accessSecret: string, verify: Verifier) returns (call: NextCall)
    modifies req
    ensures CheckAllowedRoutes(req.url) ==> call == Next && req.user == old(req.user)
    ensures !CheckAllowedRoutes(req.url) && BearerToken(req.authorization).None?
        ==> call == NextWithError(UNAUTHORIZED) && req.user == old(req.user)
    ensures !CheckAllowedRoutes(req.url) && BearerToken(req.authorization).Some?
        ==> var decoded := verify(BearerToken(req.authorization).value, accessSecret);
            && (decoded.None? ==> call == NextWithError(UNAUTHORIZED) && req.user == old(req.user))
            && (decoded.Some? ==> call == Next && req.user == decoded)
  {
    if CheckAllowedRoutes(req.url) {
      return Next;
    }
    var token := BearerToken(req.authorization);
    if token.None? {
      return NextWithError(UNAUTHORIZED);
    }
    var decoded := verify(token.value, accessSecret);
    if decoded.None? {
      return NextWithError(UNAUTHORIZED);
    }
    req.user := decoded;
    call := Next;
  }

  // ---------------------------------------------------------------- the token field

  /**
   * The token is what lies between the header's first space and the next
   * one (or the end). There is none when the header has no space, or its
   * first space is followed by another space or by the end.
   */
  lemma BearerTokenIsSecondField(header: string)
    ensures var k := FirstIndexOf(header, ' ');
      && (k == |header| ==> BearerToken(Some(header)) == None)
      && (k < |header| ==>
            var rest := header[k + 1..];
            var token := rest[..FirstIndexOf(rest, ' ')];
            BearerToken(Some(header)) == if token == "" then None else Some(token))
  {
    var k := FirstIndexOf(header, ' ');
    SplitAtFirst(header, ' ');
    if k < |header| {
      var rest := header[k + 1..];
      SplitAtFirst(rest, ' ');
      assert Split(header, ' ')[1] == rest[..FirstIndexOf(rest, ' ')];
    }
  }

  /** A header that yields a token is some scheme word, a space, the token (which holds no space) and whatever follows. */
  lemma TokenIsDelimited(header: string)
    requires BearerToken(Some(header)).Some?
    ensures var token := BearerToken(Some(header)).value;
      var k := FirstIndexOf(header, ' ');
      && token != "" && ' ' !in token
      && k + 1 + |token| <= |header|
      && header == header[..k] + " " + token + header[k + 1 + |token|..]
  {
    BearerTokenIsSecondField(header);
    var k := FirstIndexOf(header, ' ');
    CutAround(header, k, FirstIndexOf(header[k + 1..], ' '));
  }

  /** A string cut at a space at `k` and again `m` characters after it. */
  lemma CutAround(s: string, k: nat, m: nat)
    requires k < |s| && s[k] == ' ' && m <= |s| - k - 1
    ensures s == s[..k] + " " + s[k + 1..][..m] + s[k + 1 + m..]
  {
    assert s == s[..k] + [s[k]] + s[k + 1..];
    assert s[k + 1..] == s[k + 1..][..m] + s[k + 1 + m..];
  }

  /** After a scheme word without spaces and one space, the token runs to the next space or the end. */
  lemma TokenAfterScheme(scheme: string, after: string)
    requires ' ' !in scheme
    ensures var token := after[..FirstIndexOf(after, ' ')];
      BearerToken(Some(scheme + " " + after)) == if token == "" then None else Some(token)
  {
    var header := scheme + " " + after;
    assert header == scheme + (" " + after);
    FirstIndexOfPrefix(scheme, " " + after);
    assert (" " + after)[0] == ' ';
    assert header[|scheme| + 1..] == after;
    BearerTokenIsSecondField(header);
  }

  /** A header built as scheme, space, token gives back exactly that token, whatever the scheme word. */
  lemma HeaderRoundTrip(scheme: string, token: string, tail: string)
    requires ' ' !in scheme && ' ' !in token && token != ""
    ensures BearerToken(Some(scheme + " " + token)) == Some(token)
    ensures BearerToken(Some(scheme + " " + token + " " + tail)) == Some(token)
  {
    TokenAfterScheme(scheme, token);
    FirstIndexOfPrefix(token, "");
    assert token + "" == token;
    assert token[..|token|] == token;
    var after := token + " " + tail;
    TokenAfterScheme(scheme, after);
    assert scheme + " " + after == scheme + " " + token + " " + tail;
    FirstIndexOfPrefix(token, " " + tail);
    assert after == token + (" " + tail);
    assert (" " + tail)[0] == ' ';
    assert after[..|token|] == token;
  }

  /** Searching `prefix + rest` for a space absent from `prefix` finds the first space of `rest`, shifted. */
  lemma {:induction false} FirstIndexOfPrefix(prefix: string, rest: string)
    requires ' ' !in prefix
    ensures FirstIndexOf(prefix + rest, ' ') == |prefix| + FirstIndexOf(rest, ' ')
  {
    if prefix != [] {
      assert (prefix + rest)[0] == prefix[0] != ' ';
      assert (prefix + rest)[1..] == prefix[1..] + rest;
      assert ' ' !in prefix[1..] by {
        forall i | 0 <= i < |prefix| - 1 ensures prefix[1..][i] != ' ' {
          assert prefix[1..][i] == prefix[i + 1];
        }
      }
      FirstIndexOfPrefix(prefix[1..], rest);
    } else {
      assert prefix + rest == rest;
    }
  }

  /** The scheme word is not checked: "Token abc" yields "abc", as "Bearer abc" does. */
  lemma SchemeIsNotChecked()
    ensures BearerToken(Some("Token abc")) == Some("abc")
    ensures BearerToken(Some("Bearer abc")) == Some("abc")
  {
    HeaderRoundTrip("Token", "abc", "");
    assert "Token" + " " + "abc" == "Token abc";
    HeaderRoundTrip("Bearer", "abc", "");
    assert "Bearer" + " " + "abc" == "Bearer abc";
  }

  /** A missing or empty header, one with no space, and one whose second field is empty are rejected. */
  lemma MalformedHeadersAreRejected()
    ensures BearerToken(None) == None && BearerToken(Some("")) == None
    ensures BearerToken(Some("Bearer")) == None
    ensures BearerToken(Some("Bearer  x")) == None
  {
    NoSpaceNoToken("Bearer");
    EmptySecondField("Bearer", " x");
    assert "Bearer" + " " + " x" == "Bearer  x";
  }

  /** A header without a space carries no token. */
  lemma NoSpaceNoToken(header: string)
    requires ' ' !in header
    ensures BearerToken(Some(header)) == None
  {
    FirstIndexOfPrefix(header, "");
    assert header + "" == header;
    BearerTokenIsSecondField(header);
  }

  /** Two spaces in a row after the scheme word leave the second field empty. */
  lemma EmptySecondField(scheme: string, tail: string)
    requires ' ' !in scheme && tail != [] && tail[0] == ' '
    ensures BearerToken(Some(scheme + " " + tail)) == None
  {
    var header := scheme + " " + tail;
    FirstIndexOfPrefix(scheme, " " + tail);
    assert (" " + tail)[0] == ' ';
    assert header[|scheme| + 1..] == tail;
    BearerTokenIsSecondField(header);
  }

  /** Only the exact url `/` is allow-listed: "/posts" and "/?x=1" are not. */
  lemma OnlyRootIsAllowed()
    ensures CheckAllowedRoutes("/") && !CheckAllowedRoutes("/posts") && !CheckAllowedRoutes("/?x=1")
  {
    assert "/posts"[1] == 'p';
  }

  /**
   * A request that carries, under any scheme word, a token the signer made
   * with the access secret is let through with exactly the signed claims.
   */
  lemma SignedTokenIsAccepted(scheme: string, claims: Claims, accessSecret: string, expiresIn: string, iat: int,
                              sign: Signer, verify: Verifier)
    requires SignVerifies(sign, verify)
    requires ' ' !in scheme && ' ' !in sign(claims, accessSecret, expiresIn, iat) && sign(claims, accessSecret, expiresIn, iat) != ""
    ensures var token := BearerToken(Some(scheme + " " + sign(claims, accessSecret, expiresIn, iat)));
      token.Some? && verify(token.value, accessSecret) == Some(claims)
  {
    HeaderRoundTrip(scheme, sign(claims, accessSecret, expiresIn, iat), "");
  }
}

=== FILE: token_util.dfy ===
/**
 * Duration parsing and token issuance (src/utils/tokenUtil.js).
 * Signing and verification belong to the JWT library and are taken as
 * function values: `sign(claims, secret, expiresIn, iat)` and
 * `verify(token, secret)`, which yields the decoded claims or nothing.
 * `iat` is the issue time the library stamps into every token, the clock
 * read in whole seconds; the model takes that reading as a parameter.
 */
module TokenUtil {
  import opened Wrappers
  import opened JsText
  import opened Users

  /** `TIME_UNITS`: milliseconds per unit. */
  const TIME_UNITS: map<char, int> := map['s' := 1000, 'm' := 60 * 1000, 'h' := 3600 * 1000, 'd' := 86400 * 1000]

  /** The default value of `getExpiryTime`, returned as it is. */
  const DEFAULT_EXPIRY: string := "1d"

  /** The JavaScript value handed to `getExpiryTime`: falsy and not a number, a string, or an integer. */
  datatype ExpiryInput = Missing | Str(text: string) | Num(n: int)

  /** What `getExpiryTime` returns: a number of milliseconds, or the default value untouched. */
  datatype Expiry = Millis(ms: int) | Raw(text: string)

  /** `TIME_UNITS[unit] || 1000`. */
  function Multiplier(unit: char): int {
    if unit in TIME_UNITS then TIME_UNITS[unit] else 1000
  }

  /**
   * `getExpiryTime(value)`: a falsy value gives the default; a string is
   * read as a `parseInt` amount followed by a one-character unit, lowercased;
   * any other value is `parseInt(value, 10)` seconds.
   */
  function GetExpiryTime(value: ExpiryInput): (r: Expiry)
    ensures r.Raw? ==> r == Raw(DEFAULT_EXPIRY)
    ensures r.Millis? ==> r.ms % 1000 == 0
  {
    match value
    case Missing => Raw(DEFAULT_EXPIRY)
    case Str(s) =>
      if s == [] then Raw(DEFAULT_EXPIRY)
      else
        var unit := LowerAscii(s[|s| - 1]);
        var amount := ParseInt(s[..|s| - 1]);
        if amount.None? then Raw(DEFAULT_EXPIRY)
        else Millis(amount.value * Multiplier(unit))
    case Num(n) =>
      if n == 0 then Raw(DEFAULT_EXPIRY)
      else
        ParseIntRoundTrip(n);
        var amount := ParseInt(IntToString(n));
        Millis(amount.value * 1000)
  }

  /** `${expiresIn}`: the text handed to the signer. */
  function ExpiryText(e: Expiry): string {
    match e
    case Millis(ms) => IntToString(ms)
    case Raw(text) => text
  }

  /** The payload signed into every token. */
  datatype Claims = Claims(username: string, roles: seq<string>, id: UserId)

  /** `jwt.sign(payload, secret, {expiresIn})`, called at the second `iat`. */
  type Signer = (Claims, string, string, int) -> string
  type Verifier = (string, string) -> Option<Claims>

  /** `{username: user.username, roles: user.roles, _id: user._id}`. */
  function Payload(user: User): Claims {
    Claims(user.username, user.roles, user.id)
  }

  /** `issueToken(user, secret, expiresIn)`, called at the second `now`. */
  function IssueToken(user: User, secret: string, expiresIn: Expiry, sign: Signer, now: int): string {
    sign(Payload(user), secret, ExpiryText(expiresIn), now)
  }

  datatype TokenPair = TokenPair(accessToken: string, refreshToken: string)

  /** `getTokens`: each expiry is parsed, then one token is signed per secret, both with the one clock reading `now`. */
  function GetTokens(user: User, accessSecret: string, refreshSecret: string,
                     accessExpire: ExpiryInput, refreshExpire: ExpiryInput, sign: Signer, now: int): TokenPair {
    var accessExpireTime := GetExpiryTime(accessExpire);
    var refreshExpireTime := GetExpiryTime(refreshExpire);
    TokenPair(IssueToken(user, accessSecret, accessExpireTime, sign, now),
              IssueToken(user, refreshSecret, refreshExpireTime, sign, now))
  }

  /** A verifier that accepts what the signer produced with the same secret; it does not see the clock, so no token expires. */
  ghost predicate SignVerifies(sign: Signer, verify: Verifier) {
    forall c, secret, expiresIn, iat :: verify(sign(c, secret, expiresIn, iat), secret) == Some(c)
  }

  /** A verifier that rejects a token checked against any other secret. */
  ghost predicate SecretBound(sign: Signer, verify: Verifier) {
    forall c, secret, other, expiresIn, iat :: secret != other ==> verify(sign(c, secret, expiresIn, iat), other) == None
  }

  /** A signer never produces the empty string (a JWT always has its three parts). */
  ghost predicate TokensNonEmpty(sign: Signer) {
    forall c, secret, expiresIn, iat :: sign(c, secret, expiresIn, iat) != ""
  }

  /** Tokens signed in different seconds differ, since each carries its own `iat`. */
  ghost predicate IssueTimeSeparates(sign: Signer) {
    forall c, secret, expiresIn, t, t' :: t != t' ==> sign(c, secret, expiresIn, t) != sign(c, secret, expiresIn, t')
  }

  // ---------------------------------------------------------------- getExpiryTime

  /**
   * A string is an amount (its `parseInt` prefix) and a unit (its last
   * character): the result is amount times the unit's multiplier, or the raw
   * default exactly when the part before the unit holds no integer.
   */
  lemma StringExpiry(amountText: string, unit: char)
    ensures var r := GetExpiryTime(Str(amountText + [unit]));
      && (ParseInt(amountText).None? ==> r == Raw("1d"))
      && (ParseInt(amountText).Some? ==> r == Millis(ParseInt(amountText).value * Multiplier(LowerAscii(unit))))
  {
    assert (amountText + [unit])[..|amountText|] == amountText;
  }

  /** Digits followed by a unit: the digits' value times the unit's multiplier, never the raw default. */
  lemma DigitsThenUnit(digits: string, unit: char)
    requires digits != [] && AllDigits(digits)
    ensures GetExpiryTime(Str(digits + [unit])) == Millis(DecimalValue(digits) * Multiplier(LowerAscii(unit)))
  {
    StringExpiry(digits, unit);
    ParseIntOfDigits(digits);
  }

  /** The four units give their exact multipliers, so "30s" is 30000 and "7d" is 604800000. */
  lemma RecognisedUnits()
    ensures Multiplier('s') == 1000 && Multiplier('m') == 60000
    ensures Multiplier('h') == 3600000 && Multiplier('d') == 86400000
    ensures GetExpiryTime(Str("30s")) == Millis(30000)
    ensures GetExpiryTime(Str("7d")) == Millis(604800000)
  {
    assert "30"[..1] == "3";
    assert DecimalValue("30") == 30;
    DigitsThenUnit("30", 's');
    assert "30" + ['s'] == "30s";
    DigitsThenUnit("7", 'd');
    assert "7" + ['d'] == "7d";
  }

  /** The unit is case-insensitive: "2H" is "2h", 7200000. */
  lemma UnitIsCaseInsensitive(amountText: string, unit: char)
    requires 'a' <= unit <= 'z'
    ensures GetExpiryTime(Str(amountText + [(unit as int - 32) as char])) == GetExpiryTime(Str(amountText + [unit]))
    ensures GetExpiryTime(Str("2H")) == GetExpiryTime(Str("2h")) == Millis(7200000)
  {
    StringExpiry(amountText, unit);
    StringExpiry(amountText, (unit as int - 32) as char);
    DigitsThenUnit("2", 'H');
    DigitsThenUnit("2", 'h');
    assert "2" + ['H'] == "2H";
    assert "2" + ['h'] == "2h";
  }

  /** Any unit outside the table counts as seconds: "5x" is 5000, and "55" reads amount 5 with unit '5'. */
  lemma UnknownUnitIsSeconds(amountText: string, unit: char)
    requires LowerAscii(unit) !in TIME_UNITS
    requires ParseInt(amountText).Some?
    ensures GetExpiryTime(Str(amountText + [unit])) == Millis(ParseInt(amountText).value * 1000)
    ensures GetExpiryTime(Str("5x")) == Millis(5000)
    ensures GetExpiryTime(Str("55")) == Millis(5000)
  {
    StringExpiry(amountText, unit);
    DigitsThenUnit("5", 'x');
    DigitsThenUnit("5", '5');
    assert "5" + ['x'] == "5x";
    assert "5" + ['5'] == "55";
  }

  /**
   * The raw default `'1d'` (not 86400000) comes back exactly for a falsy
   * value or a string whose part before the unit holds no integer, such as
   * "s", "5" or "xs".
   */
  lemma RawDefaultExactly(value: ExpiryInput)
    ensures GetExpiryTime(value).Raw? <==>
      || value == Missing
      || value == Num(0)
      || (value.Str? && (value.text == [] || ParseInt(value.text[..|value.text| - 1]).None?))
    ensures GetExpiryTime(value).Raw? ==> GetExpiryTime(value) == Raw("1d")
    ensures GetExpiryTime(Str("")) == Raw("1d") && GetExpiryTime(Str("s")) == Raw("1d")
    ensures GetExpiryTime(Str("5")) == Raw("1d") && GetExpiryTime(Str("xs")) == Raw("1d")
  {
    assert "xs"[..1] == "x";
  }

  /** The amount is the `parseInt` prefix, so trailing junk is ignored: "12abcs" is 12000. */
  lemma AmountIgnoresTrailingJunk()
    ensures GetExpiryTime(Str("12abcs")) == Millis(12000)
  {
    StringExpiry("12abc", 's');
    assert "12abc" + ['s'] == "12abcs";
    ParseIntStopsAtNonDigit("12", "abc");
    assert "12" + "abc" == "12abc";
    assert "12"[..1] == "1";
    assert DecimalValue("12") == 12;
  }

  /** There is no positivity check on the amount: "-5s" is -5000. */
  lemma AmountMayBeNegative()
    ensures GetExpiryTime(Str("-5s")) == Millis(-5000)
  {
    StringExpiry("-5", 's');
    assert "-5" + ['s'] == "-5s";
    ParseIntNegative("5", "");
    assert "-" + ("5" + "") == "-5";
  }

  /** A non-string truthy value is seconds: `parseInt(String(n), 10) * 1000`, so 5 is 5000. */
  lemma NumberIsSeconds(n: int)
    ensures GetExpiryTime(Num(n)) == if n == 0 then Raw("1d") else Millis(n * 1000)
  {
    if n != 0 {
      ParseIntRoundTrip(n);
    }
  }

  // ---------------------------------------------------------------- getTokens

  /**
   * The access token is signed with the access secret and the parsed access
   * expiry, the refresh token with the refresh secret and the parsed refresh
   * expiry, and both over the same payload `{username, roles, _id}` with one
   * clock reading.
   */
  lemma TokensShareOnePayload(user: User, accessSecret: string, refreshSecret: string,
                              accessExpire: ExpiryInput, refreshExpire: ExpiryInput, sign: Signer, verify: Verifier, now: int)
    requires SignVerifies(sign, verify)
    ensures var pair := GetTokens(user, accessSecret, refreshSecret, accessExpire, refreshExpire, sign, now);
      && pair.accessToken == sign(Claims(user.username, user.roles, user.id), accessSecret, ExpiryText(GetExpiryTime(accessExpire)), now)
      && pair.refreshToken == sign(Claims(user.username, user.roles, user.id), refreshSecret, ExpiryText(GetExpiryTime(refreshExpire)), now)
      && verify(pair.accessToken, accessSecret) == Some(Claims(user.username, user.roles, user.id))
      && verify(pair.refreshToken, refreshSecret) == Some(Claims(user.username, user.roles, user.id))
  {
  }

  /**
   * With distinct secrets and a verifier bound to its secret, neither token
   * of a pair passes as the other kind.
   */
  lemma TokensAreNotInterchangeable(user: User, accessSecret: string, refreshSecret: string,
                                    accessExpire: ExpiryInput, refreshExpire: ExpiryInput, sign: Signer, verify: Verifier, now: int)
    requires SecretBound(sign, verify)
    requires accessSecret != refreshSecret
    ensures var pair := GetTokens(user, accessSecret, refreshSecret, accessExpire, refreshExpire, sign, now);
      && verify(pair.refreshToken, accessSecret) == None
      && verify(pair.accessToken, refreshSecret) == None
  {
  }

  /**
   * Nothing requires the two secrets to differ; when they are equal, the
   * refresh token verifies under the access secret, to the same claims.
   */
  lemma SharedSecretConfusesTokens(user: User, secret: string,
                                   accessExpire: ExpiryInput, refreshExpire: ExpiryInput, sign: Signer, verify: Verifier, now: int)
    requires SignVerifies(sign, verify)
    ensures var pair := GetTokens(user, secret, secret, accessExpire, refreshExpire, sign, now);
      && verify(pair.refreshToken, secret) == Some(Payload(user))
      && verify(pair.accessToken, secret) == Some(Payload(user))
  {
  }
}

=== FILE: users.dfy ===
/**
 * The user record (src/modules/User.js) and the store of users the
 * controller reads and writes: a map from store-generated id to record.
 */
module Users {
  import opened Wrappers

  type UserId = nat

  /** A stored user: the password only as its hash, the refresh tokens in the order they were pushed. */
  datatype User = User(id: UserId, username: string, passwordHash: string, refreshTokens: seq<string>, roles: seq<string>)

  /** The users and the next id the store will hand out. */
  datatype Store = Store(users: map<UserId, User>, nextId: nat)

  /** The unique index on `username`. */
  ghost predicate UniqueUsernames(users: map<UserId, User>) {
    forall a, b :: a in users && b in users && users[a].username == users[b].username ==> a == b
  }

  /**
   * What the store guarantees: each record sits under its own id, ids are
   * below the next one to be handed out, usernames are present (the schema's
   * `required`) and unique.
   */
  ghost predicate Invariant(store: Store) {
    && UniqueUsernames(store.users)
    && (forall id :: id in store.users ==> store.users[id].id == id && id < store.nextId)
    && (forall id :: id in store.users ==> store.users[id].username != "")
  }

  /** `User.findOne({username})`: the one user with that name, if any. */
  function FindByUsername(users: map<UserId, User>, username: string): (found: Option<UserId>)
    requires UniqueUsernames(users)
    ensures found.Some? ==> found.value in users && users[found.value].username == username
    ensures found.None? ==> forall id :: id in users ==> users[id].username != username
  {
    if exists id :: id in users && users[id].username == username then
      var id :| id in users && users[id].username == username;
      Some(id)
    else
      None
  }

  /** Replacing one user's refresh tokens, and nothing else, keeps the store invariant. */
  lemma SetTokensPreservesInvariant(store: Store, id: UserId, tokens: seq<string>)
    requires Invariant(store) && id in store.users
    ensures Invariant(store.(users := store.users[id := store.users[id].(refreshTokens := tokens)]))
  {
    var users' := store.users[id := store.users[id].(refreshTokens := tokens)];
    forall a, b | a in users' && b in users' && users'[a].username == users'[b].username
      ensures a == b
    {
      assert store.users[a].username == users'[a].username;
      assert store.users[b].username == users'[b].username;
    }
  }
}

=== FILE: wrappers.dfy ===
/** Failure-carrying values shared by the whole model. */
module Wrappers {

  /** A value that may be absent: JavaScript's `undefined` on one side, a present value on the other. */
  datatype Option<+T> = None | Some(value: T) {
    function GetOr(default: T): T {
      match this
      case Some(v) => v
      case None => default
    }
  }

  /** The outcome of a request handler: a value, or the error handed to `next(e)`. */
  datatype Result<+R, +E> = Success(value: R) | Failure(error: E)

  /** The outcome of a chain of checks that either passes or throws one error. */
  datatype Outcome<+E> = Pass | Fail(error: E)
}
